=== FILE: README.md ===
# A model of the batch geocoder's decision logic

This project models the part of the geocoder that decides things. The
geocoder turns a table of student addresses into points. It tries each
address with the US Census one-line geocoder, then OpenCage, then Nominatim.
It can also send the whole table to the Census batch service and merge the
results back. The model covers:

- the three single-provider attempts and the success/failure counters they
  keep (`Providers`, `Stats`);
- the Census → OpenCage → Nominatim cascade of `geocode_address` (`Cascade`);
- the Census batch input: ids `1..n`, stripped address fields, and the split
  into files of at most `batch_size` rows named after their id range
  (`Text`, `Batching`);
- the two ways batch results are merged back into the table: by position
  (`idx = id - 1`) in Geocoder.py, and by an id column in GeocoderBatch.py
  (`Reconcile`);
- the fallback pass over rows still without a geometry (`Remaining`);
- how GeocoderBatch.py combines these for one output file, with its own
  counter dictionaries next to Geocoder's (`Pipeline`).

Every remote geocoder is an input:
- `Services` gives a single `geocode_address` call one reply per provider,
  as a function of the query text.
- `Remaining.Calls` gives the fallback pass one reply per provider call, as a
  function of the row's position and the query text. Every row is its own
  network request, so two rows with the same address may get different
  replies.

A reply datatype holds the cases the code tells apart:
- an exception;
- an empty result;
- a first candidate without `coordinates`;
- a first candidate whose point keys (`x`/`y` for Census, `lng`/`lat` for
  OpenCage) are absent. The success is counted before `Point(...)` raises
  `KeyError`, and the `except` then counts a failure, so both counters move;
- an OpenCage confidence below the threshold;
- a Nominatim timeout, an unavailable service, or any other error.

A pandas table is a sequence of `Row`s:
- each row keeps its index label, its four address cells (each `Text` or
  `NaN`), its integer key columns, and the five output columns;
- coordinates are opaque `real`s, never computed on.

Two behaviours of the code are kept as they are:

- Geocoder.py writes a batch result with `df.loc[id - 1, ...]`. A label no
  row carries makes pandas append a new row. The comment at Geocoder.py:171
  ("subtract one to get the correct 0 idx row") shows the write was meant to
  reach an existing row. The append is modelled as written and reported under
  Findings. The corrected merge drops such a result, and the rest of the
  model uses it.
- Nominatim's call catches only timeouts and an unavailable service
  (Geocoder.py:90). Any other error propagates out of `geocode_address` and
  out of `geocode_remaining_addresses`. The model keeps this as the `Raised`
  attempt and the `Interrupted` pass.

`df.loc[idx, col] = v` in the fallback pass (Geocoder.py:199-209) writes every
row labelled `idx`, not one position, and the model does the same. A table
read by `pd.read_csv` has distinct labels `0..n-1`. On such a table each row
ends as the chain resolves it on its own.

## Model

| member | source | states |
|---|---|---|
| Stats.Tally.Bump | Geocoder.py:30-31 | Bumping a provider's entry in a counter dictionary raises that entry by one and leaves the other two providers' entries as they were |
| Stats.Counters.RecordSuccess | Geocoder.py:44 | A success raises that provider's success count by one and changes no failure count and no other provider's counts |
| Stats.Counters.RecordFailure | Geocoder.py:48 | A failure raises that provider's failure count by one and changes nothing else |
| Providers.GeocodeCensus | Geocoder.py:34-52 | Census answers exactly when the result is non-empty and its first candidate has coordinates with `x` and `y` and a matched address. The answer is that point, service Census and the matched address as score. Census counters only: a success on an answer; a success and a failure when `x` or `y` is absent; one failure otherwise, including when the call raises |
| Providers.GeocodeOpenCage | Geocoder.py:55-75 | OpenCage answers exactly when the first candidate's confidence is at least 7 and its geometry has `lng` and `lat`. The answer is (lng, lat), service OpenCage and the confidence as score. A confident candidate missing `lng` or `lat` counts a success and a failure. An empty result, a low confidence or an exception gives one OpenCage failure. No other provider's counters move |
| Providers.OpenCageMissingKeyCountsBoth | Geocoder.py:64-72 | A confident candidate without `lng` gives no answer, yet OpenCage gets one more success and one more failure, two attempts for one call |
| Providers.OpenCageBoundary | Geocoder.py:56-68 | Confidence 7 is accepted; confidence 6 is rejected, returns nothing and records exactly one OpenCage failure |
| Providers.GeocodeNominatim | Geocoder.py:78-93 | Any returned location is accepted, with service Nominatim and score "N/A". No location, a timeout or an unavailable service gives nothing and one failure. Any other error escapes the function and leaves the counters as they were |
| Cascade.GeocodeAddress | Geocoder.py:96-115 | Census is asked first and, when it answers, its answer is the result. OpenCage is consulted only after a Census miss, Nominatim only after both miss. Each provider that missed before the answer records its own outcome: a failure, or a success then a failure. An answer always names the first provider that accepted |
| Cascade.AllProvidersMiss | Geocoder.py:99-115 | When all three providers miss, the result is no answer and each provider has exactly one more failure. Census and OpenCage also gain a success only when their reply broke while its point was built |
| Cascade.GeocodeAddressIsFirstAccepted | Geocoder.py:99-111 | The cascade equals the generic first-accepted search over the list [Census, OpenCage, Nominatim]: no provider after the first that accepts is tried |
| Text.Strip | Geocoder.py:126-129 | `str.strip()` returns a contiguous piece of its input with no whitespace at either end |
| Text.StripOf | Geocoder.py:126-129 | Stripping whitespace + text + whitespace, where the text has no edge whitespace, returns exactly that text |
| Text.StripIdempotent | Geocoder.py:126-129 | Stripping twice is stripping once |
| Text.ParseNatToString | GeocoderBatch.py:125-127 | Reading back the decimal digits of a number printed into a file name gives the number |
| Batching.PrepareCensusBatch | Geocoder.py:118-159 | The file is census_batch_addresses.csv, with one record per row in row order. The ids returned are the records' ids, exactly 1..n. Each record's street, city and state are the row's cells with surrounding whitespace removed and nothing else; a missing cell stays missing. The zip is the stripped text, or "nan" when missing |
| Batching.StampBatchIds | GeocoderBatch.py:103 | Writes BatchID = i + 1 onto row i of the original table and changes nothing else in any row |
| Batching.NumBatchesIsCeiling | GeocoderBatch.py:115 | `(n + B - 1) // B` is the ceiling of n / B: that many batches of B rows cover n, one fewer do not |
| Batching.BatchesLength | GeocoderBatch.py:115-118 | Cutting n records into runs of B gives exactly `(n + B - 1) // B` batches |
| Batching.BatchesFlatten | GeocoderBatch.py:118-121 | Concatenating the batches in order gives back all the records in their order, so batches are contiguous, disjoint and cover all rows |
| Batching.BatchSizes | GeocoderBatch.py:118-121 | Every batch has between 1 and B records, and every batch but the last has exactly B |
| Batching.BatchesIndex | GeocoderBatch.py:119-121 | Batch i is exactly `records[i*B .. min((i+1)*B, n))` |
| Batching.BatchBounds | GeocoderBatch.py:119-120 | For each batch index below the batch count, start < end ≤ start + B, and end ≤ n before the last batch |
| Batching.StartIsProduct | GeocoderBatch.py:119 | The start offset of batch i is i * B |
| Batching.SplitBatches | GeocoderBatch.py:115-121 | The loop `for i in range(num_batches)` over slices `[i*B, min((i+1)*B, n))` collects exactly the reference batching (runs of B records from the front, the last one shorter), and the batches concatenate back to the records |
| Batching.BatchIds | GeocoderBatch.py:121-127 | For records numbered 1..n, batch i holds ids start(i)+1, start(i)+2, … in order. Its minimum id is i*B + 1 and its maximum is min((i+1)*B, n) |
| Batching.BatchIdRanges | GeocoderBatch.py:119-127 | In a Census frame numbered 1..n, every batch is non-empty, with smallest id i*B + 1 and largest min((i+1)*B, n) |
| Batching.BatchesOfCensusFrame | GeocoderBatch.py:115-127 | All batching facts together for the Census frame: count, coverage in order, per-batch slices, sizes, ids, and min/max ids |
| Batching.PrepareCensusBatchLimit | GeocoderBatch.py:89-137 | Returns the BatchID-stamped table and the reference batching of the stripped Census frame. Every batch i is non-empty, its smallest id is i*B + 1 and its largest min((i+1)*B, n). Its file is named census_batch_[year_]min_max.csv after those two ids |
| Batching.ParseBatchFileNameRoundTrip | GeocoderBatch.py:124-127 | A batch file name can be read back: parsing it yields the year (only when a non-empty year was given) and the min and max id it was built from |
| Batching.BatchFileNamesDistinct | GeocoderBatch.py:124-127 | Within one call (one year prefix), two different id ranges never share a file name, so no batch file of that call overwrites another |
| Batching.MinId | GeocoderBatch.py:125 | `batch.id.min()` is a lower bound of the batch's ids and is one of them |
| Batching.MaxId | GeocoderBatch.py:125 | `batch.id.max()` is an upper bound of the batch's ids and is one of them |
| Reconcile.Applied | GeocoderBatch.py:154-158 | A usable result sets geometry (lon, lat), service Census and its match type. The id-column merge also sets latitude and longitude; the positional merge leaves them. Address, index and keys never change |
| Reconcile.AppliedOverwrites | GeocoderBatch.py:154-158 | Applying two results to one row leaves exactly what the second one wrote |
| Reconcile.UpdateWhere | GeocoderBatch.py:153-158 | One usable result leaves every row the join does not select as it was. Every row it selects keeps its record and gets the result's point, service Census and the match type. Latitude and longitude are set from the result by the id-column join and kept by the label join |
| Reconcile.LastFor | Geocoder.py:169-174 | The result that finally stands on a row is a usable one that selects it; there is none exactly when no usable result selects the row |
| Reconcile.MergeWhere | Geocoder.py:169-177 | Processing the results in order leaves each row as its last selecting usable result wrote it. Census successes grow by the number of usable results and Census attempts by the number of results; no other counter moves |
| Reconcile.MergeByPosition | Geocoder.py:162-182 | Positional merge (corrected): the table keeps its length and its records. A row no usable result points at (id = label + 1) is unchanged. A row such a result points at holds that result's point, Census and match type, with latitude and longitude untouched. Each result moves exactly one Census counter |
| Reconcile.MergeById | GeocoderBatch.py:140-166 | Id-column merge: every row, duplicates included, whose id column equals a usable result's id holds the last such result's point, Census, match type, latitude and longitude. A row no usable result selects is unchanged, though a success is still counted. Each result moves exactly one Census counter |
| Reconcile.LastForIsLast | GeocoderBatch.py:147-158 | A usable result that selects a row, with no later usable result of the same id, is the one that stands on that row |
| Reconcile.MergeByPositionAsWritten | Geocoder.py:162-182 | The positional merge as written keeps every existing row's record and counts one Census counter per result, but may return more rows than it was given |
| Reconcile.AsWrittenAgreesInRange | Geocoder.py:169-177 | When every usable id names a row of a freshly read table, the code as written equals the corrected merge |
| Reconcile.AsWrittenAppendsPhantomRow | Geocoder.py:171-174 | For a fresh table of n rows and a usable result with id n + 1, the code as written appends a placed row with no address; the corrected merge keeps n rows |
| Table.FreeTextLayout | Geocoder.py:194 | The query a row sends is "street, city, state zip": it starts with the street and ", ", the city and ", " follow, and it ends with " " and the zip. A missing cell prints as nan, and the length is the four parts' lengths plus 5 |
| Table.CountMissing | Geocoder.py:189-191 | The number of rows without a geometry is zero exactly when every row has one |
| Remaining.Answer | Geocoder.py:196-209 | The chain's answer, read off the two replies: there is one exactly when OpenCage accepts or Nominatim returns a location, and it is OpenCage's exactly when OpenCage accepts |
| Remaining.RowAttempt | Geocoder.py:193-209 | For one row, OpenCage is asked first and its answer is taken. Otherwise Nominatim is asked, after OpenCage recorded its outcome (a failure, or a success then a failure). Census is never asked. Any answer equals `Answer` of the two replies |
| Remaining.RowAttemptIsFirstAccepted | Geocoder.py:196-209 | The per-row chain is the generic first-accepted search over [OpenCage, Nominatim] |
| Remaining.Resolved | Geocoder.py:193-209 | A row with a geometry is left alone. A missing row gets a geometry exactly when OpenCage accepts or Nominatim returns a location, with service OpenCage exactly when OpenCage accepted. Its record, latitude and longitude never change |
| Remaining.ResolvedIdempotent | Geocoder.py:193-209 | Resolving a resolved row again with the same replies changes nothing |
| Remaining.CountMissingSplits | Geocoder.py:196-204 | Every row without a geometry either gets an OpenCage answer or goes on to Nominatim, so those two counts add up to the missing rows |
| Remaining.LastFill | Geocoder.py:199-209 | The match that survives on label l is written by a row at or after the cursor that carries l. There is none exactly when the chain fills no such row |
| Remaining.LastFillIsLast | Geocoder.py:199-209 | The match that survives on label l is written by a row carrying l, and no later row carrying l is filled: the last write wins |
| Remaining.LastFillOwn | Geocoder.py:199-209 | With distinct labels, the match that survives on a row's label is the row's own |
| Remaining.FillRows | Geocoder.py:193-209 | The loop over the rows the mask selected keeps every row's record, latitude and longitude, and never moves a Census counter |
| Remaining.FillRowsInterrupted | Geocoder.py:193-209 | The loop stops early exactly when some missing row's Nominatim call raises something other than a timeout or an unavailable service |
| Remaining.FillRowsLabels | Geocoder.py:199-209 | A row whose label no row still to visit and missing a geometry carries is left as it was |
| Remaining.FillRowsSettles | Geocoder.py:193-211 | A pass that runs to the end leaves every row as the last filled row sharing its label wrote it, and otherwise as it was |
| Remaining.FillRowsCountsOpenCage | Geocoder.py:193-202 | A completed pass counts one OpenCage success per row OpenCage answers or breaks on, and one OpenCage failure per row it does not answer |
| Remaining.FillRowsCountsNominatim | Geocoder.py:204-209 | A completed pass asks Nominatim once per row OpenCage did not answer, and Nominatim successes equal the rows it fills |
| Remaining.FirstAbort | Geocoder.py:204-209 | The first row at or after the cursor whose Nominatim call raises uncaught, or the table's length when no row does. No row before it aborts |
| Remaining.FillRowsPrefix | Geocoder.py:193-209 | When the first aborting row is a, the interrupted loop has done exactly what a finished loop over the rows before a does, plus row a's OpenCage and Nominatim attempts in the counters. The table is not written for row a |
| Remaining.InterruptedPrefix | Geocoder.py:193-209 | An interrupted pass from the start equals the finished pass over the rows before the first aborting row. Each row then holds what the last filled row before the abort that shares its label wrote |
| Remaining.NothingMissingNothingDone | Geocoder.py:189-191 | With no geometry missing, the loop returns the table and counters unchanged |
| Remaining.NothingFilledNothingWritten | Geocoder.py:193-209 | When no row still to visit gets an answer or aborts, the loop finishes and writes nothing |
| Remaining.RemainingPass | Geocoder.py:185-211 | The pass returns the table unchanged when no geometry is missing. It writes only through labels that missing rows carry, so with distinct labels a placed row is never touched. It stops early exactly when Nominatim raises uncaught. A finished pass leaves each row as the last filled row sharing its label wrote it, which with distinct labels is the row's own resolution. An interrupted pass leaves each row as the last filled row before the first aborting row that shares its label wrote it. Its counters are those of the finished pass over those rows plus the aborting row's OpenCage and Nominatim attempts. It counts one OpenCage call per missing row (two counter moves when OpenCage breaks) and one Nominatim call per OpenCage miss. Census is never touched |
| Remaining.RemainingPassSettles | Geocoder.py:185-211 | With the same provider replies, a second pass over the result of a finished pass finishes and changes nothing |
| Remaining.LabelSharedRowRewritten | Geocoder.py:199-201 | When two rows share a label and OpenCage answers the one without a geometry, the other row is rewritten with OpenCage's answer although it was already placed |
| Pipeline.BatchRound | GeocoderBatch.py:238-259 | One output file: the id-column merge counts only in GeocoderBatch's Census counters, and not at all when the batch call raised. The fallback pass counts only in Geocoder's counters and never moves Census. A row whose label no unplaced row carries keeps what the merge wrote; with distinct labels that covers every row the batch placed |
| Pipeline.CensusRowsSkipFallback | GeocoderBatch.py:238-259 | In a table with distinct labels, a row selected by a usable batch result, with no later result of the same id, ends the round with service Census, that result's point and match type |
| Pipeline.StampedJoinsAgree | GeocoderBatch.py:150-154 | On a BatchID-stamped fresh table, selecting by BatchID = id picks the same row as selecting label id - 1 |
| Pipeline.ByIdMatchesByPosition | Geocoder.py:162-182 | On a BatchID-stamped fresh table, the id-column merge places every row exactly as the corrected positional merge does, and the counters agree |
| Pipeline.ThreeAddressRound | GeocoderBatch.py:238-259 | Three addresses: the batch places the first, OpenCage (confidence 8) the second, and the third ends without a geometry. GeocoderBatch's counters show one Census success; Geocoder's show one OpenCage success, one OpenCage failure and one Nominatim failure |

## Left out

- MapCreation.py is not part of this model: it is map drawing, floating-point density estimates and polygon tests.
- The network calls (`census.onelineaddress`, `opencage.geocode`, `Nominatim.geocode`, `census.addressbatch`) are inputs: the reply functions in `Services` and `Remaining.Calls`, and the optional result list of `BatchRound`.
- Pipeline.CensusRowsSkipFallback: stated only for tables with distinct index labels, which is what `pd.read_csv` produces. With a repeated label, a missing row's fallback answer rewrites a placed row that shares the label. `Remaining.LabelSharedRowRewritten` states that case.
- A first OpenCage candidate without 'geometry' or 'confidence' raises `KeyError` before any success is counted. The result is one OpenCage failure, exactly what `OpenCageFault` gives, so no separate reply case models it.
- CSV reading and writing, `verify_census_file`, the diagnostic prints, `time.sleep`, dotenv key loading and the unused Google Maps client are I/O with no effect on the decisions.
- Both `main()` functions are file-system orchestration. `BatchRound` models one file of the GeocoderBatch loop. The `prepare_census_batch(addresses_df)` call at GeocoderBatch.py:226 passes too few arguments to GeocoderBatch's own five-parameter version and would raise, so the round starts from the batch call.
- GeocoderBatch.py:44-86 repeats Geocoder's `prepare_census_batch` with the column names as parameters. `Batching.PrepareCensusBatch` stands for both, because the address cells are the same whatever the columns are called.
- The `Full_Address` column built in GeocoderBatch's `main()` is not used by any modelled operation.
- The Census `threshold = 85` (Geocoder.py:35) is assigned and never read.
- `Point` construction is the pair (x, y) of opaque coordinates; no geographic meaning or floating-point behaviour is modelled.
- Batching.PrepareCensusBatch, Batching.PrepareCensusBatchLimit: `.str.strip()` raises AttributeError when a street, city or state column holds no text at all, which is how pandas reads an all-empty column (as float64). The model instead returns records whose cells stay missing, so it does not promise the raise.
- Batching.PrepareCensusBatchLimit: requires a batch size above zero. Zero raises ZeroDivisionError at GeocoderBatch.py:115, and a negative size is not a meaningful call.
- `astype(str)` on a numeric zip column, where pandas prints e.g. `62701.0`: zip cells are text as read, with a missing zip printing as "nan".
- A table without one of the named address columns raises KeyError in pandas. The model's rows always carry the four address cells.
- Reconcile.MergeById, Pipeline.BatchRound: a row whose `keys` map lacks the id column is read as holding NaN there, so no result selects it. When the column is missing from the whole table, the model therefore returns the table unchanged and counts one Census success per usable result. The source instead raises KeyError at `original_df[id_column]` (GeocoderBatch.py:153), before the success bump at :158. The `except` at :249 catches it, so the batch counters keep only the failures counted before the first usable result, and no row is written.
- A batch result dictionary missing the `id` key, a `None` result, and an id that `int()` cannot parse would raise. Results are well-formed records whose `lat`/`lon` may be absent and whose `match` may be false.
- The `output_folder` path prefix only changes where a file is written, not its name.

## Findings

| source | as written | input that shows it | evidently intended | confidence | as-written member | corrected member |
|---|---|---|---|---|---|---|
| Geocoder.py:171-174 | `original_df.loc[int(id) - 1, col] = v` is a label lookup: when no row has that label, pandas appends a new row under it, with every other column missing | a freshly read table of n rows and one matched result with id n + 1 | a result whose id names no row is discarded, and the table keeps its n rows | not executed | Reconcile.MergeByPositionAsWritten (shown by Reconcile.AsWrittenAppendsPhantomRow) | Reconcile.MergeByPosition |

=== FILE: batching.dfy ===
/**
  Preparing addresses for the Census batch service: `prepare_census_batch`
  (Geocoder.py), which numbers the rows 1..n and strips every field, and
  `prepare_census_batch_limit` (GeocoderBatch.py), which also writes those
  numbers into the table as `BatchID` and cuts the rows into files of at most
  `batch_size` rows, each named after its id range.
 */
module Batching {
  import opened Options
  import opened Text
  import opened Table

  /** One line of the headerless census file: id, street, city, state, zip. */
  datatype CensusRecord = CensusRecord(id: nat, street: Cell, city: Cell, state: Cell, zip: string)

  /** `series.str.strip()`: text is stripped, a missing value stays missing. */
  function StripCell(c: Cell): (c': Cell)
    ensures c'.NaN? <==> c.NaN?
    ensures c'.Text? ==> Trimmed(c'.text)
  {
    match c
    case Text(s) => Text(Strip(s))
    case NaN => NaN
  }

  /** `series.astype(str).str.strip()`: a missing zip becomes the text "nan". */
  function ZipText(c: Cell): (z: string)
    ensures Trimmed(z)
    ensures c.NaN? ==> z == "nan"
  {
    var s := Show(c);
    if c.NaN? then
      StripOf("", "nan", "");
      assert "" + "nan" + "" == "nan";
      Strip(s)
    else
      Strip(s)
  }

  /** The census-format frame built from the table, row by row. */
  function CensusRecords(t: Table): (recs: seq<CensusRecord>)
    ensures |recs| == |t|
    // ids 1..n in row order: no gaps, no repeats
    ensures forall i :: 0 <= i < |t| ==> recs[i].id == i + 1
    ensures forall i :: 0 <= i < |t| ==>
              && recs[i].street == StripCell(t[i].address.street)
              && recs[i].city == StripCell(t[i].address.city)
              && recs[i].state == StripCell(t[i].address.state)
              && recs[i].zip == ZipText(t[i].address.zip)
  {
    seq(|t|, i requires 0 <= i < |t| =>
      var a := t[i].address;
      CensusRecord(i + 1, StripCell(a.street), StripCell(a.city), StripCell(a.state), ZipText(a.zip)))
  }

  /** The two values `prepare_census_batch` returns and the file it writes. */
  datatype CensusFile = CensusFile(name: string, records: seq<CensusRecord>, ids: seq<nat>)

  /** Geocoder.py `prepare_census_batch`: one file, 'census_batch_addresses.csv',
      holding every row; the returned ids are 1..n. */
  function PrepareCensusBatch(t: Table): (f: CensusFile)
    ensures f.name == "census_batch_addresses.csv"
    ensures |f.records| == |f.ids| == |t|
    ensures forall i :: 0 <= i < |t| ==> f.ids[i] == f.records[i].id == i + 1
    ensures forall i :: 0 <= i < |t| ==> SameAddress(f.records[i], t[i].address)
  {
    var recs := CensusRecords(t);
    RecordsKeepAddresses(t);
    CensusFile("census_batch_addresses.csv", recs, seq(|recs|, i requires 0 <= i < |recs| => recs[i].id))
  }

  lemma StripKeepsText(s: string)
    ensures StrippedFrom(Strip(s), s)
  {
  }

  lemma RecordsKeepAddresses(t: Table)
    ensures forall i :: 0 <= i < |t| ==> SameAddress(CensusRecords(t)[i], t[i].address)
  {
    var recs := CensusRecords(t);
    forall i | 0 <= i < |t|
      ensures SameAddress(recs[i], t[i].address)
    {
      var a := t[i].address;
      if a.street.Text? { StripKeepsText(a.street.text); }
      if a.city.Text? { StripKeepsText(a.city.text); }
      if a.state.Text? { StripKeepsText(a.state.text); }
      if a.zip.Text? { StripKeepsText(a.zip.text); }
    }
  }

  /** The record carries the address fields, stripped: each text field is the
      raw field with surrounding whitespace removed and no more. */
  predicate SameAddress(r: CensusRecord, a: Address) {
    && SameStripped(r.street, a.street)
    && SameStripped(r.city, a.city)
    && SameStripped(r.state, a.state)
    && (a.zip.NaN? ==> r.zip == "nan")
    && (a.zip.Text? ==> StrippedFrom(r.zip, a.zip.text))
  }

  predicate SameStripped(out: Cell, raw: Cell) {
    (out.NaN? <==> raw.NaN?) && (out.Text? && raw.Text? ==> StrippedFrom(out.text, raw.text))
  }

  /** `out` is `raw` with whitespace removed from both ends, and no more. */
  predicate StrippedFrom(out: string, raw: string) {
    Trimmed(out) && exists i :: 0 <= i <= |raw| - |out| && out == raw[i..i + |out|]
                               && AllSpace(raw[..i]) && AllSpace(raw[i + |out|..])
  }

  // ------------------------------------------------------------ batch ids

  const BatchIdColumn: string := "BatchID"

  /** `df['BatchID'] = range(1, len(df) + 1)` on the caller's table. */
  function StampBatchIds(t: Table): (t': Table)
    ensures |t'| == |t|
    ensures forall i :: 0 <= i < |t| ==>
              && t'[i].keys == t[i].keys[BatchIdColumn := i + 1]
              && t'[i] == t[i].(keys := t'[i].keys)
  {
    seq(|t|, i requires 0 <= i < |t| => t[i].(keys := t[i].keys[BatchIdColumn := i + 1]))
  }

  /** Python's `min` on two integers. */
  function Min(a: int, b: int): int {
    if a < b then a else b
  }

  /** `(len(census_df) + batch_size - 1) // batch_size` */
  function NumBatches(n: nat, size: nat): nat
    requires size > 0
  {
    (n + size - 1) / size
  }

  /** The batch count is ceil(n / size): enough batches to hold every row, and
      not one more than needed. */
  lemma NumBatchesIsCeiling(n: nat, size: nat)
    requires size > 0
    ensures var k := NumBatches(n, size);
            && k * size >= n
            && (k > 0 ==> (k - 1) * size < n)
            && (k == 0 <==> n == 0)
  {
    var k := NumBatches(n, size);
    var r := (n + size - 1) % size;
    assert n + size - 1 == k * size + r;
    assert (k - 1) * size == k * size - size;
  }

  /** Row position where batch `k` starts, `k * size`, written as repeated
      addition so that the proofs about batches stay linear. */
  function Start(k: nat, size: nat): nat {
    if k == 0 then 0 else Start(k - 1, size) + size
  }

  lemma {:induction false} StartIsProduct(k: nat, size: nat)
    ensures Start(k, size) == k * size
  {
    if k > 0 {
      StartIsProduct(k - 1, size);
    }
  }

  lemma {:induction false} StartMono(a: nat, b: nat, size: nat)
    requires a <= b
    ensures Start(a, size) <= Start(b, size)
  {
    if a < b {
      StartMono(a, b - 1, size);
    }
  }

  // ------------------------------------------------------------ file names

  const BatchPrefix: string := "census_batch_"

  /** `if year:` -- a year string counts only when it is non-empty. */
  predicate YearGiven(year: Option<string>) {
    year.Some? && |year.value| > 0
  }

  /** `census_batch_{year}_{min}_{max}.csv`, or without the year part. */
  function BatchFileName(year: Option<string>, lo: nat, hi: nat): string {
    BatchPrefix + (if YearGiven(year) then year.value + "_" else "")
    + NatToString(lo) + "_" + NatToString(hi) + ".csv"
  }

  /** What a batch file name says about its batch. */
  datatype FileRange = FileRange(year: Option<string>, first: nat, last: nat)

  function LastUnderscore(s: string): (k: Option<nat>)
    ensures k.Some? ==> k.value < |s| && s[k.value] == '_'
                        && forall j :: k.value < j < |s| ==> s[j] != '_'
    ensures k.None? ==> forall j :: 0 <= j < |s| ==> s[j] != '_'
  {
    if |s| == 0 then None
    else if s[|s| - 1] == '_' then Some(|s| - 1)
    else LastUnderscore(s[..|s| - 1])
  }

  /** Splits at the last underscore: `s.rsplit('_', 1)`. */
  function SplitLast(s: string): Option<(string, string)> {
    match LastUnderscore(s)
    case None => None
    case Some(k) => Some((s[..k], s[k + 1..]))
  }

  /** A decimal field of a file name: non-empty and all digits. */
  predicate IsNumeral(s: string) {
    |s| > 0 && IsDigits(s)
  }

  /** Reads the year and the id range back out of a batch file name, splitting
      at the underscores from the right (a year may itself hold underscores). */
  function ParseBatchFileName(name: string): Option<FileRange> {
    if |name| < |BatchPrefix| + 4 || name[..|BatchPrefix|] != BatchPrefix || name[|name| - 4..] != ".csv"
    then None
    else ParseRange(name[|BatchPrefix|..|name| - 4])
  }

  /** The part between the prefix and `.csv`: `[year_]lo_hi`. */
  function ParseRange(body: string): Option<FileRange> {
    match SplitLast(body)
    case None => None
    case Some((front, hi)) =>
      if !IsNumeral(hi) then None
      else
        match SplitLast(front)
        case None =>
          if !IsNumeral(front) then None
          else Some(FileRange(None, ParseNat(front), ParseNat(hi)))
        case Some((year, lo)) =>
          if !IsNumeral(lo) then None
          else Some(FileRange(Some(year), ParseNat(lo), ParseNat(hi)))
  }

  lemma {:induction false} LastUnderscoreOf(a: string, b: string)
    requires forall j :: 0 <= j < |b| ==> b[j] != '_'
    ensures LastUnderscore(a + "_" + b) == Some(|a|)
  {
    var s := a + "_" + b;
    if |b| > 0 {
      var b' := b[..|b| - 1];
      assert s[|s| - 1] == b[|b| - 1];
      assert s[..|s| - 1] == a + "_" + b';
      LastUnderscoreOf(a, b');
    } else {
      assert s[|s| - 1] == '_';
    }
  }

  lemma SplitLastOf(a: string, b: string)
    requires IsDigits(b)
    ensures SplitLast(a + "_" + b) == Some((a, b))
  {
    var s := a + "_" + b;
    LastUnderscoreOf(a, b);
    assert s[..|a|] == a;
    assert s[|a| + 1..] == b;
  }

  lemma {:induction false} NoUnderscoreInDigits(s: string)
    requires IsDigits(s)
    ensures LastUnderscore(s).None?
  {
    if |s| > 0 {
      assert IsDigits(s[..|s| - 1]);
      NoUnderscoreInDigits(s[..|s| - 1]);
    }
  }

  lemma {:induction false} ParseRangeRoundTrip(year: Option<string>, lo: nat, hi: nat)
    ensures var y := if YearGiven(year) then year.value + "_" else "";
            ParseRange(y + NatToString(lo) + "_" + NatToString(hi))
            == Some(FileRange(if YearGiven(year) then year else None, lo, hi))
  {
    var y := if YearGiven(year) then year.value + "_" else "";
    var l, h := NatToString(lo), NatToString(hi);
    SplitLastOf(y + l, h);
    ParseNatToString(lo);
    ParseNatToString(hi);
    if YearGiven(year) {
      assert y + l == year.value + "_" + l;
      SplitLastOf(year.value, l);
    } else {
      assert y + l == l;
      NoUnderscoreInDigits(l);
    }
  }

  /** A batch file name gives back the year (when one was used) and the id range
      it was made from. */
  lemma ParseBatchFileNameRoundTrip(year: Option<string>, lo: nat, hi: nat)
    ensures ParseBatchFileName(BatchFileName(year, lo, hi))
            == Some(FileRange(if YearGiven(year) then year else None, lo, hi))
  {
    var y := if YearGiven(year) then year.value + "_" else "";
    var body := y + NatToString(lo) + "_" + NatToString(hi);
    var name := BatchFileName(year, lo, hi);
    assert name == BatchPrefix + body + ".csv";
    assert name[..|BatchPrefix|] == BatchPrefix;
    assert name[|name| - 4..] == ".csv";
    assert name[|BatchPrefix|..|name| - 4] == body;
    ParseRangeRoundTrip(year, lo, hi);
  }

  /** Different id ranges never share a file name, so no batch file overwrites another. */
  lemma BatchFileNamesDistinct(year: Option<string>, lo1: nat, hi1: nat, lo2: nat, hi2: nat)
    requires lo1 != lo2 || hi1 != hi2
    ensures BatchFileName(year, lo1, hi1) != BatchFileName(year, lo2, hi2)
  {
    ParseBatchFileNameRoundTrip(year, lo1, hi1);
    ParseBatchFileNameRoundTrip(year, lo2, hi2);
  }

  // ------------------------------------------------------------ batches

  /** `batch.id.min()` */
  function MinId(b: seq<CensusRecord>): (m: nat)
    requires |b| > 0
    ensures forall k :: 0 <= k < |b| ==> m <= b[k].id
    ensures exists k :: 0 <= k < |b| && b[k].id == m
  {
    if |b| == 1 then b[0].id
    else
      var m' := MinId(b[1..]);
      assert forall k :: 1 <= k < |b| ==> b[k] == b[1..][k - 1];
      if b[0].id <= m' then b[0].id else m'
  }

  /** `batch.id.max()` */
  function MaxId(b: seq<CensusRecord>): (m: nat)
    requires |b| > 0
    ensures forall k :: 0 <= k < |b| ==> b[k].id <= m
    ensures exists k :: 0 <= k < |b| && b[k].id == m
  {
    if |b| == 1 then b[0].id
    else
      var m' := MaxId(b[1..]);
      assert forall k :: 1 <= k < |b| ==> b[k] == b[1..][k - 1];
      if b[0].id >= m' then b[0].id else m'
  }

  /** The batches laid end to end. */
  function Flatten<T>(bs: seq<seq<T>>): seq<T> {
    if |bs| == 0 then [] else bs[0] + Flatten(bs[1..])
  }

  /** Batch `k` of `recs`: the rows from `Start(k)` up to `min(Start(k + 1), n)`. */
  function BatchSlice<T>(recs: seq<T>, k: nat, size: nat): seq<T>
    requires Start(k, size) <= |recs|
  {
    recs[Start(k, size) .. Min(Start(k + 1, size), |recs|)]
  }

  /** The frame cut into consecutive pieces of `size` rows, the last one shorter
      when `size` does not divide the row count. */
  function Batches<T>(recs: seq<T>, size: nat): seq<seq<T>>
    requires size > 0
    decreases |recs|
  {
    if |recs| == 0 then []
    else
      var m := Min(size, |recs|);
      [recs[..m]] + Batches(recs[m..], size)
  }

  /** `Start(L)` reaches `n` and `Start(L - 1)` does not: the batch count that
      covers `n` rows is determined by that alone. */
  predicate Covers(L: nat, n: nat, size: nat) {
    Start(L, size) >= n && (L > 0 ==> Start(L - 1, size) < n)
  }

  lemma CoversUnique(a: nat, b: nat, n: nat, size: nat)
    requires size > 0 && Covers(a, n, size) && Covers(b, n, size)
    ensures a == b
  {
    if a < b {
      StartMono(a, b - 1, size);
    } else if b < a {
      StartMono(b, a - 1, size);
    }
  }

  lemma {:induction false} BatchesCover<T>(recs: seq<T>, size: nat)
    requires size > 0
    ensures Covers(|Batches(recs, size)|, |recs|, size)
    decreases |recs|
  {
    var n := |recs|;
    if n > 0 {
      var m := Min(size, n);
      var rest := recs[m..];
      BatchesCover(rest, size);
      var L' := |Batches(rest, size)|;
      assert |Batches(recs, size)| == L' + 1;
      assert Start(L' + 1, size) == Start(L', size) + size;
      if n > size {
        assert L' > 0;
        assert Start(L', size) == Start(L' - 1, size) + size;
      } else {
        assert Batches(rest, size) == [];
      }
    }
  }

  /** There are `NumBatches(n, size)` pieces, `ceil(n / size)`. */
  lemma {:induction false} BatchesLength<T>(recs: seq<T>, size: nat)
    requires size > 0
    ensures |Batches(recs, size)| == NumBatches(|recs|, size)
  {
    var num := NumBatches(|recs|, size);
    NumBatchesIsCeiling(|recs|, size);
    StartIsProduct(num, size);
    if num > 0 {
      StartIsProduct(num - 1, size);
    }
    BatchesCover(recs, size);
    CoversUnique(|Batches(recs, size)|, num, |recs|, size);
  }

  /** Every piece is non-empty and holds at most `size` rows; all but the last
      hold exactly `size`. */
  lemma {:induction false} BatchSizes<T>(recs: seq<T>, size: nat)
    requires size > 0
    ensures forall i :: 0 <= i < |Batches(recs, size)| ==> 0 < |Batches(recs, size)[i]| <= size
    ensures forall i :: 0 <= i < |Batches(recs, size)| - 1 ==> |Batches(recs, size)[i]| == size
    decreases |recs|
  {
    if |recs| > 0 {
      var m := Min(size, |recs|);
      BatchSizes(recs[m..], size);
      var bs, rest := Batches(recs, size), Batches(recs[m..], size);
      assert forall i :: 0 < i < |bs| ==> bs[i] == rest[i - 1];
      if |bs| > 1 {
        assert |rest| > 0;
        assert m == size;
      }
    }
  }

  /** Laid end to end, the pieces give back the frame: every row lands in
      exactly one batch, in order. */
  lemma {:induction false} BatchesFlatten<T>(recs: seq<T>, size: nat)
    requires size > 0
    ensures Flatten(Batches(recs, size)) == recs
    decreases |recs|
  {
    if |recs| > 0 {
      var m := Min(size, |recs|);
      var bs := Batches(recs, size);
      BatchesFlatten(recs[m..], size);
      assert bs[0] == recs[..m];
      assert bs[1..] == Batches(recs[m..], size);
      assert recs[..m] + recs[m..] == recs;
    }
  }

  /** Piece `k` is the slice `[Start(k), min(Start(k + 1), n))`. */
  lemma BatchesHead<T>(recs: seq<T>, size: nat)
    requires size > 0 && |recs| > 0
    ensures Batches(recs, size)[0] == recs[..Min(size, |recs|)]
  {
  }

  lemma BatchesTail<T>(recs: seq<T>, size: nat, k: nat)
    requires size > 0
    requires 0 < k < |Batches(recs, size)|
    ensures |recs| > size
    ensures k - 1 < |Batches(recs[size..], size)|
    ensures Batches(recs, size)[k] == Batches(recs[size..], size)[k - 1]
  {
    var m := Min(size, |recs|);
    assert Batches(recs, size) == [recs[..m]] + Batches(recs[m..], size);
  }

  lemma SliceOfSuffix<T>(s: seq<T>, m: nat, a: nat, b: nat)
    requires a <= b && m + b <= |s|
    ensures s[m..][a..b] == s[m + a..m + b]
  {
  }

  /** Piece `k` is the slice `[Start(k), min(Start(k + 1), n))`. */
  lemma {:induction false} BatchesIndex<T>(recs: seq<T>, size: nat, k: nat)
    requires size > 0
    requires k < |Batches(recs, size)|
    ensures Start(k, size) < |recs|
    ensures Batches(recs, size)[k] == BatchSlice(recs, k, size)
    decreases k
  {
    if k == 0 {
      BatchesHead(recs, size);
    } else {
      BatchesTail(recs, size, k);
      var rest := recs[size..];
      BatchesIndex(rest, size, k - 1);
      var a, b := Start(k - 1, size), Min(Start(k, size), |rest|);
      assert Start(k, size) == size + a;
      assert Min(Start(k + 1, size), |recs|) == size + b;
      SliceOfSuffix(recs, size, a, b);
    }
  }

  /** Every one of the `NumBatches(n, size)` batches starts inside the frame, is
      non-empty and holds at most `size` rows; all but the last hold exactly
      `size`. */
  lemma {:induction false} BatchBounds(n: nat, k: nat, size: nat)
    requires size > 0
    requires k < NumBatches(n, size)
    ensures Start(k, size) < n
    ensures 0 < Min(Start(k + 1, size), n) - Start(k, size) <= size
    ensures k < NumBatches(n, size) - 1 ==> Start(k + 1, size) <= n
  {
    var num := NumBatches(n, size);
    NumBatchesIsCeiling(n, size);
    StartIsProduct(num - 1, size);
    StartMono(k, num - 1, size);
    if k < num - 1 {
      StartMono(k + 1, num - 1, size);
    }
  }

  /** The slicing loop of `prepare_census_batch_limit`:
      `census_df.iloc[i * batch_size:(i + 1) * batch_size]` for each batch `i`. */
  method SplitBatches<T>(recs: seq<T>, size: nat) returns (batches: seq<seq<T>>)
    requires size > 0
    ensures batches == Batches(recs, size)
    ensures Flatten(batches) == recs
  {
    var n := |recs|;
    var numBatches := (n + size - 1) / size;
    BatchesLength(recs, size);
    batches := [];
    for i := 0 to numBatches
      invariant batches == Batches(recs, size)[..i]
    {
      var startIdx := i * size;
      var endIdx := Min((i + 1) * size, n);
      BatchesIndex(recs, size, i);
      StartIsProduct(i, size);
      StartIsProduct(i + 1, size);
      batches := batches + [recs[startIdx..endIdx]];
    }
    BatchesFlatten(recs, size);
  }

  /** Batch `k` of a census frame whose ids run 1..n holds the ids
      `Start(k) + 1, Start(k) + 2, ...`, so its smallest id is `Start(k) + 1` and
      its largest is its last row's position. */
  lemma BatchIds(recs: seq<CensusRecord>, k: nat, size: nat)
    requires size > 0
    requires forall i :: 0 <= i < |recs| ==> recs[i].id == i + 1
    requires k < NumBatches(|recs|, size)
    ensures Start(k, size) < |recs|
    ensures forall j :: 0 <= j < |BatchSlice(recs, k, size)| ==>
              BatchSlice(recs, k, size)[j].id == Start(k, size) + j + 1
    ensures |BatchSlice(recs, k, size)| > 0
    ensures MinId(BatchSlice(recs, k, size)) == Start(k, size) + 1
    ensures MaxId(BatchSlice(recs, k, size)) == Min(Start(k + 1, size), |recs|)
  {
    BatchBounds(|recs|, k, size);
    var b := BatchSlice(recs, k, size);
    assert MinId(b) <= b[0].id;
    assert b[|b| - 1].id <= MaxId(b);
  }

  /** The smallest and largest id of batch `i` of a census frame, read off its
      position. */
  lemma BatchIdRange(recs: seq<CensusRecord>, size: nat, i: nat)
    requires size > 0
    requires forall j :: 0 <= j < |recs| ==> recs[j].id == j + 1
    requires i < |Batches(recs, size)|
    ensures |Batches(recs, size)[i]| > 0
    ensures MinId(Batches(recs, size)[i]) == Start(i, size) + 1
    ensures MaxId(Batches(recs, size)[i]) == Min(Start(i + 1, size), |recs|)
  {
    BatchesLength(recs, size);
    BatchesIndex(recs, size, i);
    BatchIds(recs, i, size);
  }

  /** `census_batch_[{year}_]{batch.id.min()}_{batch.id.max()}.csv` for each batch. */
  function FileNames(batches: seq<seq<CensusRecord>>, year: Option<string>): (names: seq<string>)
    requires forall k :: 0 <= k < |batches| ==> |batches[k]| > 0
    ensures |names| == |batches|
    ensures forall k :: 0 <= k < |batches| ==>
              names[k] == BatchFileName(year, MinId(batches[k]), MaxId(batches[k]))
  {
    seq(|batches|, k requires 0 <= k < |batches| => BatchFileName(year, MinId(batches[k]), MaxId(batches[k])))
  }

  /** Every batch of a census frame is non-empty, and its smallest and largest
      ids are `Start(i) + 1` and `min(Start(i + 1), n)`. */
  lemma BatchIdRanges(recs: seq<CensusRecord>, size: nat)
    requires size > 0
    requires forall j :: 0 <= j < |recs| ==> recs[j].id == j + 1
    ensures var bs := Batches(recs, size);
            forall i {:trigger bs[i]} :: 0 <= i < |bs| ==>
              && |bs[i]| > 0
              && MinId(bs[i]) == Start(i, size) + 1
              && MaxId(bs[i]) == Min(Start(i + 1, size), |recs|)
  {
    var bs := Batches(recs, size);
    forall i | 0 <= i < |bs|
      ensures |bs[i]| > 0 && MinId(bs[i]) == Start(i, size) + 1 && MaxId(bs[i]) == Min(Start(i + 1, size), |recs|)
    {
      BatchIdRange(recs, size, i);
    }
  }

  /** Stamping `BatchID` does not change what goes into the census frame. */
  lemma StampKeepsRecords(t: Table)
    ensures CensusRecords(StampBatchIds(t)) == CensusRecords(t)
  {
  }

  /** What the batch files of a census frame hold: `NumBatches` non-empty
      slices, consecutive and covering every row once, all full but the last;
      batch `i` starts at row `Start(i)` (that is `i * size`) and its smallest
      and largest ids are its first and last row numbers. */
  predicate Batched(recs: seq<CensusRecord>, batches: seq<seq<CensusRecord>>, size: nat)
    requires size > 0
  {
    && |batches| == NumBatches(|recs|, size)
    && Flatten(batches) == recs
    && (forall i {:trigger batches[i]} :: 0 <= i < |batches| ==>
          Start(i, size) < |recs| && batches[i] == BatchSlice(recs, i, size))
    && (forall i :: 0 <= i < |batches| ==> 0 < |batches[i]| <= size)
    && (forall i :: 0 <= i < |batches| - 1 ==> |batches[i]| == size)
    && (forall i, k {:trigger batches[i][k]} :: 0 <= i < |batches| && 0 <= k < |batches[i]| ==>
          batches[i][k].id == Start(i, size) + k + 1)
    && (forall i {:trigger batches[i]} :: 0 <= i < |batches| ==>
          MinId(batches[i]) == Start(i, size) + 1 && MaxId(batches[i]) == Min(Start(i + 1, size), |recs|))
  }

  /** Cutting a census frame whose ids run 1..n gives batches of that shape. */
  lemma BatchesOfCensusFrame(recs: seq<CensusRecord>, size: nat)
    requires size > 0
    requires forall i :: 0 <= i < |recs| ==> recs[i].id == i + 1
    ensures Batched(recs, Batches(recs, size), size)
  {
    var bs := Batches(recs, size);
    BatchesLength(recs, size);
    BatchesFlatten(recs, size);
    BatchSizes(recs, size);
    forall i | 0 <= i < |bs|
      ensures Start(i, size) < |recs| && bs[i] == BatchSlice(recs, i, size)
    {
      BatchesIndex(recs, size, i);
    }
    forall i | 0 <= i < |bs|
      ensures forall k {:trigger bs[i][k]} :: 0 <= k < |bs[i]| ==> bs[i][k].id == Start(i, size) + k + 1
      ensures MinId(bs[i]) == Start(i, size) + 1 && MaxId(bs[i]) == Min(Start(i + 1, size), |recs|)
    {
      BatchIds(recs, i, size);
    }
  }

  /** GeocoderBatch.py `prepare_census_batch_limit`: stamps `BatchID` onto the
      table, cuts the census frame into batches of `batchSize` rows and names
      each file after the smallest and largest id it holds, which are
      `i * batchSize + 1` and `min((i + 1) * batchSize, n)` for batch `i`
      (`BatchesOfCensusFrame` gives the rest of what the batches satisfy). */
  method PrepareCensusBatchLimit(t: Table, batchSize: nat, year: Option<string>)
    returns (stamped: Table, files: seq<string>, batches: seq<seq<CensusRecord>>)
    requires batchSize > 0
    ensures stamped == StampBatchIds(t)
    // batch i covers ids i * batchSize + 1 through min((i + 1) * batchSize, n)
    ensures forall i {:trigger batches[i]} :: 0 <= i < |batches| ==>
              && |batches[i]| > 0
              && MinId(batches[i]) == Start(i, batchSize) + 1
              && MaxId(batches[i]) == Min(Start(i + 1, batchSize), |t|)
    ensures batches == Batches(CensusRecords(t), batchSize)
    // and its file is named after that range
    ensures |files| == |batches|
    ensures forall i {:trigger files[i]} :: 0 <= i < |batches| ==>
              files[i] == BatchFileName(year, MinId(batches[i]), MaxId(batches[i]))
  {
    stamped := StampBatchIds(t);
    // census_df's 'id' column is df['BatchID']
    var recs := CensusRecords(stamped);
    StampKeepsRecords(t);
    batches := SplitBatches(recs, batchSize);
    BatchIdRanges(recs, batchSize);
    files := FileNames(batches, year);
  }

}

=== FILE: cascade.dfy ===
/**
  The fallback cascade of `geocode_address` (Geocoder.py): Census, then
  OpenCage, then Nominatim, stopping at the first provider that answers. The
  providers are looked up through `Services`, three functions from the
  address text to what that provider would reply.
 */
module Cascade {
  import opened Options
  import opened Stats
  import opened Providers

  /** What each remote geocoder replies to a given free-text address. */
  datatype Services = Services(
    census: string -> CensusReply,
    opencage: string -> OpenCageReply,
    nominatim: string -> NominatimReply)

  function GeocodeAddress(address: string, svc: Services, c: Counters): (a: Attempt)
    // Census first: when it answers, nothing else is asked
    ensures var rc := svc.census(address);
            CensusAccepts(rc) ==> a == GeocodeCensus(rc, c)
    // OpenCage only after a Census miss; Nominatim is then not asked
    ensures var rc, ro := svc.census(address), svc.opencage(address);
            !CensusAccepts(rc) && OpenCageAccepts(ro) ==>
              && a.Answered? && a.found == GeocodeOpenCage(ro, c).found
              && Recorded(c, a.counters, Census, CensusOutcome(rc))
              && SucceededOnce(c, a.counters, OpenCage)
              && Untouched(c, a.counters, Nominatim)
    // Nominatim last, unconditionally accepted when it returns a location
    ensures var rc, ro, rn := svc.census(address), svc.opencage(address), svc.nominatim(address);
            !CensusAccepts(rc) && !OpenCageAccepts(ro) ==>
              && (a.Raised? <==> rn.OtherFailure?)
              && (a.Answered? ==> a.found == GeocodeNominatim(rn, c).found)
              && Recorded(c, a.counters, Census, CensusOutcome(rc))
              && Recorded(c, a.counters, OpenCage, OpenCageOutcome(ro))
              && (a.Answered? && a.found.Some? ==> SucceededOnce(c, a.counters, Nominatim))
              && (a.Answered? && a.found.None? ==> FailedOnce(c, a.counters, Nominatim))
              && (a.Raised? ==> Untouched(c, a.counters, Nominatim))
    // every answer names the provider that produced it
    ensures a.Answered? && a.found.Some? ==>
              match a.found.value.service
              case Census => CensusAccepts(svc.census(address))
              case OpenCage => !CensusAccepts(svc.census(address)) && OpenCageAccepts(svc.opencage(address))
              case Nominatim => !CensusAccepts(svc.census(address)) && !OpenCageAccepts(svc.opencage(address))
                                && NominatimAccepts(svc.nominatim(address))
  {
    var census := GeocodeCensus(svc.census(address), c);
    if census.found.Some? then census
    else
      var opencage := GeocodeOpenCage(svc.opencage(address), census.counters);
      if opencage.found.Some? then opencage
      else
        var nominatim := GeocodeNominatim(svc.nominatim(address), opencage.counters);
        if nominatim.Raised? || nominatim.found.Some? then nominatim
        else Answered(None, nominatim.counters)
  }

  /** When all three providers miss, the triple is `(None, None, None)` and each
      provider has exactly one more failure; a success was counted as well only
      where the reply raised while its point was built. */
  lemma AllProvidersMiss(address: string, svc: Services, c: Counters)
    requires !CensusAccepts(svc.census(address))
    requires !OpenCageAccepts(svc.opencage(address))
    requires svc.nominatim(address) in {NoLocation, TimedOut, Unavailable}
    ensures var a := GeocodeAddress(address, svc, c);
            && a == Answered(None, a.counters)
            && (forall p :: a.counters.failures.Get(p) == c.failures.Get(p) + 1)
            && Recorded(c, a.counters, Census, CensusOutcome(svc.census(address)))
            && Recorded(c, a.counters, OpenCage, OpenCageOutcome(svc.opencage(address)))
            && FailedOnce(c, a.counters, Nominatim)
  {
  }

  // ------------------------------------------------ the cascade as a provider list

  /** One provider's reply, tagged with the provider it came from. */
  datatype Reply =
    | FromCensus(census: CensusReply)
    | FromOpenCage(opencage: OpenCageReply)
    | FromNominatim(nominatim: NominatimReply)

  function Try(r: Reply, c: Counters): Attempt {
    match r
    case FromCensus(x) => GeocodeCensus(x, c)
    case FromOpenCage(x) => GeocodeOpenCage(x, c)
    case FromNominatim(x) => GeocodeNominatim(x, c)
  }

  predicate Accepts(r: Reply) {
    match r
    case FromCensus(x) => CensusAccepts(x)
    case FromOpenCage(x) => OpenCageAccepts(x)
    case FromNominatim(x) => NominatimAccepts(x)
  }

  /** The reply raises an exception the geocoding function does not catch. */
  predicate Escapes(r: Reply) {
    r.FromNominatim? && r.nominatim.OtherFailure?
  }

  /** The cascade moves past this reply to the next provider. */
  predicate Passes(r: Reply) {
    !Accepts(r) && !Escapes(r)
  }

  /** Position of the first reply the cascade does not move past, or `|rs|`. */
  function FirstStop(rs: seq<Reply>): (k: nat)
    ensures k <= |rs|
    ensures forall j :: 0 <= j < k ==> Passes(rs[j])
    ensures k < |rs| ==> !Passes(rs[k])
  {
    if |rs| == 0 || !Passes(rs[0]) then 0 else 1 + FirstStop(rs[1..])
  }

  /** The cascade written generically: try each provider in turn and return the
      first answer, `(None, None, None)` when all of them miss. */
  function FirstAccepted(rs: seq<Reply>, c: Counters): (a: Attempt)
    ensures var k := FirstStop(rs);
            && (k == |rs| <==> a.Answered? && a.found.None?)
            && (k < |rs| ==> (a.Raised? <==> Escapes(rs[k])))
            && (k < |rs| && a.Answered? ==> a.found == Try(rs[k], c).found && a.found.Some?)
  {
    if |rs| == 0 then Answered(None, c)
    else
      var a := Try(rs[0], c);
      if a.Raised? || a.found.Some? then a
      else FirstAccepted(rs[1..], a.counters)
  }

  /** `geocode_address` is the generic cascade over [Census, OpenCage, Nominatim]. */
  lemma GeocodeAddressIsFirstAccepted(address: string, svc: Services, c: Counters)
    ensures GeocodeAddress(address, svc, c)
            == FirstAccepted([FromCensus(svc.census(address)),
                              FromOpenCage(svc.opencage(address)),
                              FromNominatim(svc.nominatim(address))], c)
  {
    var rs := [FromCensus(svc.census(address)),
               FromOpenCage(svc.opencage(address)),
               FromNominatim(svc.nominatim(address))];
    var a0 := Try(rs[0], c);
    if a0.found.None? {
      assert rs[1..] == [rs[1], rs[2]];
      assert FirstAccepted(rs, c) == FirstAccepted(rs[1..], a0.counters);
      var a1 := Try(rs[1], a0.counters);
      if a1.found.None? {
        assert rs[1..][1..] == [rs[2]];
        assert FirstAccepted(rs[1..], a0.counters) == FirstAccepted([rs[2]], a1.counters);
        var a2 := Try(rs[2], a1.counters);
        if a2.Answered? && a2.found.None? {
          assert [rs[2]][1..] == [];
          assert FirstAccepted([rs[2]], a1.counters) == FirstAccepted([], a2.counters);
        }
      }
    }
  }
}

=== FILE: options.dfy ===
/** A value that may be absent: Python's `None` for a provider answer, or a
    pandas `NaN`/`None` cell. */
module Options {
  datatype Option<T> = None | Some(value: T)
}

=== FILE: pipeline.dfy ===
/**
  How the pieces meet in GeocoderBatch.py. That module does `from Geocoder import *`
  and then binds its own `geocoding_successes` and `geocoding_failures`, so two
  pairs of counter dictionaries are alive at once: GeocoderBatch's own, which
  its `process_census_results` updates, and Geocoder's, which the imported
  `geocode_remaining_addresses` (and the provider functions it calls) update.
  One output file is handled by merging the Census batch results by id column
  and then sending every row still without a geometry down the fallback chain.
 */
module Pipeline {
  import opened Options
  import opened Stats
  import opened Providers
  import opened Table
  import opened Cascade
  import opened Reconcile
  import opened Remaining
  import opened Batching

  /** The two counter states, one per module. */
  datatype Registry = Registry(geocoder: Counters, batch: Counters)

  /** The table after one file is processed, with both counter states, and
      whether the fallback pass ran to the end. */
  datatype Round = Round(table: Table, registry: Registry, finished: bool)

  /** The merge half of a round: by id column when the batch call returned,
      nothing when it raised. */
  function BatchMerge(results: Option<seq<BatchResult>>, t: Table, column: string, c: Counters): (m: Merged)
    ensures |m.table| == |t|
    ensures forall i :: 0 <= i < |t| ==> SameRecord(t[i], m.table[i])
  {
    if results.Some? then MergeById(results.value, t, column, c) else Merged(t, c)
  }

  /** One file of the batch run: the Census batch results (`None` when
      `census.addressbatch` raised, which the run catches and moves past) are
      merged on `column` with GeocoderBatch's counters, then the remaining pass
      runs with Geocoder's counters. */
  function BatchRound(results: Option<seq<BatchResult>>, t: Table, column: string,
                      calls: Calls, reg: Registry): (out: Round)
    ensures |out.table| == |t|
    ensures forall i :: 0 <= i < |t| ==> SameRecord(t[i], out.table[i])
    // the batch merge counts only Census, and only in GeocoderBatch's counters
    ensures OnlyTouches(reg.batch, out.registry.batch, Census)
    ensures results.None? ==> out.registry.batch == reg.batch
    ensures results.Some? ==>
              && out.registry.batch.Attempts(Census) == reg.batch.Attempts(Census) + |results.value|
              && out.registry.batch.successes.Get(Census)
                 == reg.batch.successes.Get(Census) + CountUsable(results.value)
    // the fallback pass never asks Census, and counts in Geocoder's counters
    ensures Untouched(reg.geocoder, out.registry.geocoder, Census)
    // the fallback pass writes only through the labels of rows the merge left unplaced
    ensures var merged := BatchMerge(results, t, column, reg.batch).table;
            forall i :: 0 <= i < |t| && !Pending(merged, 0, t[i].index) ==> out.table[i] == merged[i]
    // so, with distinct labels, a row the batch already placed keeps what the merge wrote
    ensures var merged := BatchMerge(results, t, column, reg.batch).table;
            DistinctLabels(t) ==> forall i :: 0 <= i < |t| && merged[i].geometry.Some? ==> out.table[i] == merged[i]
  {
    var merged := BatchMerge(results, t, column, reg.batch);
    var pass := RemainingPass(merged.table, calls, reg.geocoder);
    assert DistinctLabels(t) ==> DistinctLabels(merged.table);
    Round(pass.table, Registry(pass.counters, merged.counters), pass.Finished?)
  }

  /** A row the Census batch places keeps the Census answer to the end of the
      round when labels are distinct: the two ways of resolving a row exclude
      each other. */
  lemma CensusRowsSkipFallback(rs: seq<BatchResult>, t: Table, column: string, calls: Calls,
                               reg: Registry, i: nat, k: nat)
    requires DistinctLabels(t)
    requires i < |t| && k < |rs| && Usable(rs[k]) && Selects(ByColumn(column), t[i], rs[k].id)
    requires forall k' :: k < k' < |rs| && Usable(rs[k']) ==> rs[k'].id != rs[k].id
    ensures var out := BatchRound(Some(rs), t, column, calls, reg);
            && out.table[i].service == Some(Census)
            && out.table[i].geometry == Some(Point(rs[k].lon.value, rs[k].lat.value))
            && out.table[i].matchScore == Some(Label(rs[k].matchtype))
  {
  }

  // ------------------------------------------- the two joins on a stamped table

  /** The columns both joins write. */
  predicate SamePlacement(r: Row, r': Row) {
    r.geometry == r'.geometry && r.service == r'.service && r.matchScore == r'.matchScore
  }

  /** On a table `prepare_census_batch_limit` has stamped, the `BatchID` column
      selects exactly the row the label `id - 1` selects. */
  lemma StampedJoinsAgree(t: Table, i: nat, id: int)
    requires FreshIndex(t) && i < |t|
    ensures Selects(ByColumn(BatchIdColumn), StampBatchIds(t)[i], id)
            <==> Selects(ByLabel, StampBatchIds(t)[i], id)
  {
  }

  lemma {:induction false} LastForStamped(rs: seq<BatchResult>, t: Table, i: nat)
    requires FreshIndex(t) && i < |t|
    ensures LastFor(rs, ByColumn(BatchIdColumn), StampBatchIds(t)[i])
            == LastFor(rs, ByLabel, StampBatchIds(t)[i])
  {
    if |rs| > 0 {
      StampedJoinsAgree(t, i, rs[0].id);
      LastForStamped(rs[1..], t, i);
    }
  }

  /** Joining on `BatchID` and joining on the label `id - 1` place the same
      results in the same rows of a freshly read, stamped table and count the
      same; only the join on the column also fills `latitude` and `longitude`. */
  lemma ByIdMatchesByPosition(rs: seq<BatchResult>, t: Table, c: Counters)
    requires FreshIndex(t)
    ensures var byId := MergeById(rs, StampBatchIds(t), BatchIdColumn, c);
            var byPos := MergeByPosition(rs, StampBatchIds(t), c);
            && |byId.table| == |byPos.table| == |t|
            && (forall i :: 0 <= i < |t| ==> SamePlacement(byId.table[i], byPos.table[i]))
            && byId.counters == byPos.counters
  {
    var s := StampBatchIds(t);
    var byId := MergeById(rs, s, BatchIdColumn, c);
    var byPos := MergeByPosition(rs, s, c);
    forall i | 0 <= i < |t|
      ensures SamePlacement(byId.table[i], byPos.table[i])
    {
      LastForStamped(rs, t, i);
    }
    SameCensusCount(c, byId.counters, byPos.counters);
  }

  /** Two counter states reached from `c` by the same Census successes and
      attempts, and nothing else, are equal. */
  lemma SameCensusCount(c: Counters, a: Counters, b: Counters)
    requires OnlyTouches(c, a, Census) && OnlyTouches(c, b, Census)
    requires a.successes.Get(Census) == b.successes.Get(Census) && a.Attempts(Census) == b.Attempts(Census)
    ensures a == b
  {
    assert Untouched(c, a, OpenCage) && Untouched(c, b, OpenCage);
    assert Untouched(c, a, Nominatim) && Untouched(c, b, Nominatim);
  }

  // ---------------------------------------------------------- a worked example

  const Street1: Address := Address(Text("1 Elm St"), Text("Springfield"), Text("IL"), Text("62701"))
  const Street2: Address := Address(Text("2 Oak Ave"), Text("Springfield"), Text("IL"), Text("62702"))
  const Street3: Address := Address(Text("3 Pine Rd"), Text("Springfield"), Text("IL"), Text("62703"))

  function Fresh(index: int, a: Address): Row {
    Row(index, a, map["batch_id" := index + 1], None, None, None, None, None)
  }

  const Three: Table := [Fresh(0, Street1), Fresh(1, Street2), Fresh(2, Street3)]

  /** OpenCage answers only the second address, at confidence 8; Nominatim finds
      nothing. */
  const Replies: Calls := Calls(
    (k, q) => if q == FreeText(Street2) then OpenCageCandidates([OpenCageCandidate(Some(41.8), Some(-89.6), 8)])
              else OpenCageCandidates([]),
    (k, q) => NoLocation)

  /** The batch places only the first address. */
  const BatchOne: seq<BatchResult> := [BatchResult(1, Some(39.8), Some(-89.6), true, "Exact")]

  /** The merge places the first address and leaves the others as they were. */
  lemma MergeBatchOne()
    ensures var m := MergeById(BatchOne, Three, "batch_id", Initial);
            && |m.table| == 3
            && m.table[0].geometry.Some? && m.table[0].service == Some(Census) && m.table[0].index == 0
            && m.table[1] == Three[1] && m.table[2] == Three[2]
            && m.counters == Counters(Tally(1, 0, 0), Tally(0, 0, 0))
  {
    var j := ByColumn("batch_id");
    assert Selects(j, Three[0], 1);
    assert !Selects(j, Three[1], 1);
    assert !Selects(j, Three[2], 1);
    var t' := UpdateWhere(Three, j, BatchOne[0]);
    assert BatchOne[1..] == [];
    assert MergeWhere(BatchOne, Three, j, Initial) == MergeWhere([], t', j, Initial.RecordSuccess(Census));
  }

  /** The merged table of the example: the first row placed, the others as read. */
  predicate AfterMerge(t: Table) {
    |t| == 3 && t[0].geometry.Some? && t[0].index == 0 && t[1] == Three[1] && t[2] == Three[2]
  }

  /** What the fallback chain makes of the second and third address. */
  lemma FallbackReplies(t: Table)
    requires AfterMerge(t)
    ensures TakesAt(t, 1, Replies, OpenCageFills)
    ensures !TakesAt(t, 1, Replies, OpenCageBreaks) && !TakesAt(t, 1, Replies, ReachesNominatim)
    ensures !TakesAt(t, 1, Replies, NominatimFills)
    ensures !TakesAt(t, 2, Replies, OpenCageFills) && !TakesAt(t, 2, Replies, OpenCageBreaks)
    ensures TakesAt(t, 2, Replies, ReachesNominatim) && !TakesAt(t, 2, Replies, NominatimFills)
    ensures forall i :: 0 <= i < |t| ==> !AbortsAt(t, i, Replies)
    ensures ResolvedAt(t, 1, Replies).service == Some(OpenCage)
    ensures ResolvedAt(t, 1, Replies).matchScore == Some(Confidence(8))
    ensures ResolvedAt(t, 2, Replies) == Three[2]
  {
    assert FreeText(Street3)[0] == '3' && FreeText(Street2)[0] == '2';
  }

  /** Counting over the merged table. */
  lemma FallbackCounts(t: Table)
    requires AfterMerge(t)
    ensures CountMissing(t) == 2
    ensures Count(t, 0, Replies, OpenCageFills) == 1
    ensures Count(t, 0, Replies, OpenCageBreaks) == 0
    ensures Count(t, 0, Replies, ReachesNominatim) == 1
    ensures Count(t, 0, Replies, NominatimFills) == 0
  {
    FallbackReplies(t);
    forall route: Route
      ensures Count(t, 0, Replies, route) == Count(t, 1, Replies, route)
      ensures Count(t, 1, Replies, route)
              == (if TakesAt(t, 1, Replies, route) then 1 else 0) + Count(t, 2, Replies, route)
      ensures Count(t, 2, Replies, route) == (if TakesAt(t, 2, Replies, route) then 1 else 0)
    {
    }
    assert t[1..] == [Three[1], Three[2]] && t[1..][1..] == [Three[2]] && t[1..][1..][1..] == [];
  }

  /** Three addresses: the batch places the first, OpenCage the second, and the
      third is missed by both fallbacks. Rows 1 and 2 end with a geometry, row 3
      without; GeocoderBatch's counters show one Census success, Geocoder's one
      OpenCage success and one failure and one Nominatim failure. */
  lemma ThreeAddressRound()
    ensures var out := BatchRound(Some(BatchOne), Three, "batch_id", Replies, Registry(Initial, Initial));
            && out.finished
            && out.table[0].geometry.Some? && out.table[0].service == Some(Census)
            && out.table[1].geometry.Some? && out.table[1].service == Some(OpenCage)
            && out.table[1].matchScore == Some(Confidence(8))
            && out.table[2].geometry.None?
            && out.registry.batch == Counters(Tally(1, 0, 0), Tally(0, 0, 0))
            && out.registry.geocoder == Counters(Tally(0, 1, 0), Tally(0, 1, 1))
  {
    MergeBatchOne();
    FallbackPass(MergeById(BatchOne, Three, "batch_id", Initial).table);
  }

  /** The fallback pass over the merged table, with Geocoder's counters fresh:
      it runs to the end, fills the second row from OpenCage and leaves the
      third without a geometry. */
  lemma FallbackPass(t: Table)
    requires AfterMerge(t)
    ensures var p := RemainingPass(t, Replies, Initial);
            && p.Finished?
            && p.table[0] == t[0]
            && p.table[1].service == Some(OpenCage) && p.table[1].matchScore == Some(Confidence(8))
            && p.table[2].geometry.None?
            && p.counters == Counters(Tally(0, 1, 0), Tally(0, 1, 1))
  {
    assert DistinctLabels(t);
    FallbackReplies(t);
    FallbackCounts(t);
    var p := RemainingPass(t, Replies, Initial);
    assert p.counters.successes.Get(OpenCage) == 1 && p.counters.successes.Get(Nominatim) == 0;
  }
}

=== FILE: providers.dfy ===
/**
  The three single-address geocoders (Geocoder.py, `geocode_address_census`,
  `geocode_address_opencage`, `geocode_address_nominatim`). Each network call
  is an input: a reply value that carries the information the source
  inspects, including dictionary keys that may be absent. Each attempt yields either the source's triple — a point, the
  service name and a score, or `(None, None, None)` — together with the
  updated counters, or an exception that escapes the function.
 */
module Providers {
  import opened Options
  import opened Stats

  /** A coordinate as a provider reports it; never computed on. */
  type Coordinate = real

  /** `shapely.geometry.Point(x, y)`, x being the longitude and y the latitude. */
  datatype Point = Point(x: Coordinate, y: Coordinate)

  /** The third element of the triple: the Census matched address, the OpenCage
      confidence, the literal 'N/A' from Nominatim, or a Census batch match type. */
  datatype Score = Label(text: string) | Confidence(value: int)

  /** A non-None triple `(point, service, score)`. */
  datatype Match = Match(point: Point, service: Provider, score: Score)

  /** What a call to one geocoding function leaves behind. `Answered(None, _)`
      is the triple `(None, None, None)`; `Raised` is an exception that escaped. */
  datatype Attempt =
    | Answered(found: Option<Match>, counters: Counters)
    | Raised(counters: Counters)

  // ---------------------------------------------------------------- Census

  /** The 'coordinates' dictionary of a Census match; its 'x' and 'y' keys may be absent. */
  datatype Coords = Coords(x: Option<Coordinate>, y: Option<Coordinate>)

  /** One element of `census.onelineaddress(address)`: a dictionary that may or
      may not hold the keys 'coordinates' and 'matchedAddress'. */
  datatype CensusCandidate = CensusCandidate(coordinates: Option<Coords>, matchedAddress: Option<string>)

  /** The Census call either raised (network, HTTP or parse error) or returned a list. */
  datatype CensusReply = CensusFault | CensusCandidates(candidates: seq<CensusCandidate>)

  /** The list is non-empty, its first element has 'coordinates', and reading its
      'matchedAddress' does not raise: the Census success is counted. */
  predicate CensusCounted(r: CensusReply) {
    && r.CensusCandidates?
    && |r.candidates| > 0
    && r.candidates[0].coordinates.Some?
    && r.candidates[0].matchedAddress.Some?
  }

  /** ... and the point can be built from `coords['x']` and `coords['y']`. */
  predicate CensusAccepts(r: CensusReply) {
    CensusCounted(r) && r.candidates[0].coordinates.value.x.Some? && r.candidates[0].coordinates.value.y.Some?
  }

  function CensusOutcome(r: CensusReply): Outcome {
    if CensusAccepts(r) then Success else if CensusCounted(r) then SuccessThenFailure else Failure
  }

  function GeocodeCensus(r: CensusReply, c: Counters): (a: Attempt)
    ensures a.Answered?
    ensures a.found.Some? <==> CensusAccepts(r)
    ensures a.found.Some? ==>
              var xy := r.candidates[0].coordinates.value;
              a.found.value == Match(Point(xy.x.value, xy.y.value), Census,
                                     Label(r.candidates[0].matchedAddress.value))
    ensures Recorded(c, a.counters, Census, CensusOutcome(r))
    ensures OnlyTouches(c, a.counters, Census)
  {
    match r
    case CensusFault => Answered(None, c.RecordFailure(Census))
    case CensusCandidates(cs) =>
      if |cs| > 0 && cs[0].coordinates.Some? then
        match cs[0].matchedAddress
        // a missing 'matchedAddress' raises KeyError before the success is counted
        case None => Answered(None, c.RecordFailure(Census))
        case Some(m) =>
          var counted := c.RecordSuccess(Census);
          var xy := cs[0].coordinates.value;
          if xy.x.Some? && xy.y.Some? then
            Answered(Some(Match(Point(xy.x.value, xy.y.value), Census, Label(m))), counted)
          else
            // `coords['x']` or `coords['y']` raises KeyError after the success was counted
            OnlyTouchesChain(c, counted, counted.RecordFailure(Census), Census);
            Answered(None, counted.RecordFailure(Census))
      else
        Answered(None, c.RecordFailure(Census))
  }

  // ---------------------------------------------------------------- OpenCage

  /** The local `threshold` of `geocode_address_opencage`. */
  const OpenCageThreshold: int := 7

  /** One element of `opencage.geocode(address)`: the 'lat' and 'lng' keys of its
      'geometry', either of which may be absent, and its 'confidence'. */
  datatype OpenCageCandidate = OpenCageCandidate(lat: Option<Coordinate>, lng: Option<Coordinate>, confidence: int)

  /** The OpenCage call either raised (any `Exception`) or returned a ranked list. */
  datatype OpenCageReply = OpenCageFault | OpenCageCandidates(candidates: seq<OpenCageCandidate>)

  /** The list is non-empty and its top candidate is confident enough: the
      OpenCage success is counted. */
  predicate OpenCageConfident(r: OpenCageReply) {
    r.OpenCageCandidates? && |r.candidates| > 0 && r.candidates[0].confidence >= OpenCageThreshold
  }

  /** ... and the point can be built from `location['lng']` and `location['lat']`. */
  predicate OpenCageAccepts(r: OpenCageReply) {
    OpenCageConfident(r) && r.candidates[0].lat.Some? && r.candidates[0].lng.Some?
  }

  function OpenCageOutcome(r: OpenCageReply): Outcome {
    if OpenCageAccepts(r) then Success else if OpenCageConfident(r) then SuccessThenFailure else Failure
  }

  function GeocodeOpenCage(r: OpenCageReply, c: Counters): (a: Attempt)
    ensures a.Answered?
    ensures a.found.Some? <==> OpenCageAccepts(r)
    ensures a.found.Some? ==>
              var top := r.candidates[0];
              a.found.value == Match(Point(top.lng.value, top.lat.value), OpenCage, Confidence(top.confidence))
    ensures Recorded(c, a.counters, OpenCage, OpenCageOutcome(r))
    ensures OnlyTouches(c, a.counters, OpenCage)
  {
    match r
    case OpenCageFault => Answered(None, c.RecordFailure(OpenCage))
    case OpenCageCandidates(cs) =>
      if |cs| > 0 then
        var top := cs[0];
        if top.confidence >= OpenCageThreshold then
          var counted := c.RecordSuccess(OpenCage);
          if top.lat.Some? && top.lng.Some? then
            Answered(Some(Match(Point(top.lng.value, top.lat.value), OpenCage, Confidence(top.confidence))),
                     counted)
          else
            // `location['lng']` or `location['lat']` raises KeyError after the success was counted
            OnlyTouchesChain(c, counted, counted.RecordFailure(OpenCage), OpenCage);
            Answered(None, counted.RecordFailure(OpenCage))
        else
          Answered(None, c.RecordFailure(OpenCage))
      else
        Answered(None, c.RecordFailure(OpenCage))
  }

  /** The threshold boundary: confidence 7 is accepted, 6 is rejected and counted
      as one OpenCage failure. */
  lemma OpenCageBoundary(lat: Coordinate, lng: Coordinate, rest: seq<OpenCageCandidate>, c: Counters)
    ensures GeocodeOpenCage(OpenCageCandidates([OpenCageCandidate(Some(lat), Some(lng), 7)] + rest), c).found
            == Some(Match(Point(lng, lat), OpenCage, Confidence(7)))
    ensures var a := GeocodeOpenCage(OpenCageCandidates([OpenCageCandidate(Some(lat), Some(lng), 6)] + rest), c);
            a.found.None? && a.counters == c.RecordFailure(OpenCage)
  {
  }

  /** A confident candidate without 'lng' is not an answer, yet it leaves one more
      OpenCage success and one more OpenCage failure behind. */
  lemma OpenCageMissingKeyCountsBoth(lat: Coordinate, confidence: int, rest: seq<OpenCageCandidate>, c: Counters)
    requires confidence >= OpenCageThreshold
    ensures var a := GeocodeOpenCage(OpenCageCandidates([OpenCageCandidate(Some(lat), None, confidence)] + rest), c);
            && a.found.None?
            && a.counters == c.RecordSuccess(OpenCage).RecordFailure(OpenCage)
            && a.counters.Attempts(OpenCage) == c.Attempts(OpenCage) + 2
  {
  }

  // ---------------------------------------------------------------- Nominatim

  /** `Nominatim.geocode(address)`: a location, `None`, one of the two exceptions
      the source catches, or any other exception, which escapes. */
  datatype NominatimReply =
    | Location(latitude: Coordinate, longitude: Coordinate)
    | NoLocation
    | TimedOut
    | Unavailable
    | OtherFailure

  predicate NominatimAccepts(r: NominatimReply) {
    r.Location?
  }

  function GeocodeNominatim(r: NominatimReply, c: Counters): (a: Attempt)
    ensures a.Raised? <==> r.OtherFailure?
    ensures a.Answered? ==> (a.found.Some? <==> NominatimAccepts(r))
    ensures a.Answered? && a.found.Some? ==>
              a.found.value == Match(Point(r.longitude, r.latitude), Nominatim, Label("N/A"))
    ensures a.Answered? && a.found.Some? ==> SucceededOnce(c, a.counters, Nominatim)
    ensures a.Answered? && a.found.None? ==> FailedOnce(c, a.counters, Nominatim)
    ensures a.Raised? ==> a.counters == c
    ensures OnlyTouches(c, a.counters, Nominatim)
  {
    match r
    case Location(lat, lon) =>
      Answered(Some(Match(Point(lon, lat), Nominatim, Label("N/A"))), c.RecordSuccess(Nominatim))
    case NoLocation => Answered(None, c.RecordFailure(Nominatim))
    case TimedOut => Answered(None, c.RecordFailure(Nominatim))
    case Unavailable => Answered(None, c.RecordFailure(Nominatim))
    case OtherFailure => Raised(c)
  }
}

=== FILE: reconcile.dfy ===
/**
  Merging Census batch results back into the address table.

  The source has two versions of `process_census_results`:
  - Geocoder.py finds the row by its index label `id - 1` (`df.loc[idx, ...]`);
  - GeocoderBatch.py updates every row whose id column equals `id` (a boolean
    mask), and also fills `latitude` and `longitude`.
  Each result counts one Census success when it is usable and one Census
  failure otherwise.
 */
module Reconcile {
  import opened Options
  import opened Stats
  import opened Providers
  import opened Table

  /** One record of `census.addressbatch(...)`: its id (already parsed by `int()`),
      the optional 'lat' and 'lon' keys, the 'match' flag and the 'matchtype'. */
  datatype BatchResult = BatchResult(id: int, lat: Option<Coordinate>, lon: Option<Coordinate>,
                                     matched: bool, matchtype: string)

  /** `result and 'lat' in result and 'lon' in result and result['match']` */
  predicate Usable(r: BatchResult) {
    r.lat.Some? && r.lon.Some? && r.matched
  }

  function CountUsable(rs: seq<BatchResult>): (n: nat)
    ensures n <= |rs|
  {
    if |rs| == 0 then 0 else (if Usable(rs[0]) then 1 else 0) + CountUsable(rs[1..])
  }

  /** How a result finds its rows. */
  datatype Join =
    | ByLabel               // Geocoder.py: the row labelled `id - 1`
    | ByColumn(column: string)  // GeocoderBatch.py: every row whose `column` equals `id`

  predicate Selects(j: Join, r: Row, id: int) {
    match j
    case ByLabel => r.index == id - 1
    // a row with no value in the column holds NaN, which equals nothing
    case ByColumn(col) => col in r.keys && r.keys[col] == id
  }

  /** The columns one usable result writes into a selected row. */
  function Applied(j: Join, r: Row, res: BatchResult): (r': Row)
    requires Usable(res)
    ensures SameRecord(r, r')
    ensures r'.geometry == Some(Point(res.lon.value, res.lat.value))
    ensures r'.service == Some(Census) && r'.matchScore == Some(Label(res.matchtype))
    ensures j.ByLabel? ==> r'.latitude == r.latitude && r'.longitude == r.longitude
    ensures j.ByColumn? ==> r'.latitude == res.lat && r'.longitude == res.lon
  {
    var r1 := Filled(r, Match(Point(res.lon.value, res.lat.value), Census, Label(res.matchtype)));
    if j.ByColumn? then r1.(latitude := res.lat, longitude := res.lon) else r1
  }

  /** A later result overwrites everything an earlier one wrote. */
  lemma AppliedOverwrites(j: Join, r: Row, a: BatchResult, b: BatchResult)
    requires Usable(a) && Usable(b)
    ensures Applied(j, Applied(j, r, a), b) == Applied(j, r, b)
  {
  }

  /** Apply one usable result to every row it selects. */
  function UpdateWhere(t: Table, j: Join, res: BatchResult): (t': Table)
    requires Usable(res)
    ensures |t'| == |t|
    ensures forall i :: 0 <= i < |t| && !Selects(j, t[i], res.id) ==> t'[i] == t[i]
    ensures forall i :: 0 <= i < |t| && Selects(j, t[i], res.id) ==>
              && SameRecord(t[i], t'[i])
              && t'[i].geometry == Some(Point(res.lon.value, res.lat.value))
              && t'[i].service == Some(Census) && t'[i].matchScore == Some(Label(res.matchtype))
              && (j.ByLabel? ==> t'[i].latitude == t[i].latitude && t'[i].longitude == t[i].longitude)
              && (j.ByColumn? ==> t'[i].latitude == res.lat && t'[i].longitude == res.lon)
  {
    seq(|t|, i requires 0 <= i < |t| => if Selects(j, t[i], res.id) then Applied(j, t[i], res) else t[i])
  }

  datatype Merged = Merged(table: Table, counters: Counters)

  /** The last usable result in `rs` that selects row `r`: the one whose values
      survive in that row after all results are processed. */
  function LastFor(rs: seq<BatchResult>, j: Join, r: Row): (w: Option<BatchResult>)
    ensures w.Some? ==> w.value in rs && Usable(w.value) && Selects(j, r, w.value.id)
    ensures w.None? <==> forall k :: 0 <= k < |rs| && Usable(rs[k]) ==> !Selects(j, r, rs[k].id)
  {
    if |rs| == 0 then None
    else
      var later := LastFor(rs[1..], j, r);
      if later.Some? then later
      else if Usable(rs[0]) && Selects(j, r, rs[0].id) then Some(rs[0])
      else None
  }

  /** What a row looks like after all of `rs` has been merged. */
  function Final(rs: seq<BatchResult>, j: Join, r: Row): Row {
    match LastFor(rs, j, r)
    case None => r
    case Some(w) => Applied(j, r, w)
  }

  /** Both `process_census_results` loops with the unknown-label case left out:
      results are processed in order, each usable one updating every row it
      selects and nothing else. */
  function MergeWhere(rs: seq<BatchResult>, t: Table, j: Join, c: Counters): (m: Merged)
    ensures |m.table| == |t|
    ensures forall i :: 0 <= i < |t| ==> m.table[i] == Final(rs, j, t[i])
    ensures m.counters.successes.Get(Census) == c.successes.Get(Census) + CountUsable(rs)
    ensures m.counters.Attempts(Census) == c.Attempts(Census) + |rs|
    ensures OnlyTouches(c, m.counters, Census)
  {
    if |rs| == 0 then Merged(t, c)
    else
      var res := rs[0];
      if Usable(res) then
        var m := MergeWhere(rs[1..], UpdateWhere(t, j, res), j, c.RecordSuccess(Census));
        OnlyTouchesChain(c, c.RecordSuccess(Census), m.counters, Census);
        assert forall i :: 0 <= i < |t| ==> m.table[i] == Final(rs, j, t[i]) by {
          forall i | 0 <= i < |t|
            ensures m.table[i] == Final(rs, j, t[i])
          {
            FinalStep(rs, j, t[i]);
          }
        }
        m
      else
        var m := MergeWhere(rs[1..], t, j, c.RecordFailure(Census));
        OnlyTouchesChain(c, c.RecordFailure(Census), m.counters, Census);
        assert forall i :: 0 <= i < |t| ==> m.table[i] == Final(rs, j, t[i]) by {
          forall i | 0 <= i < |t|
            ensures m.table[i] == Final(rs, j, t[i])
          {
            assert LastFor(rs, j, t[i]) == LastFor(rs[1..], j, t[i]);
          }
        }
        m
  }

  /** Folding in the first result, then the rest, gives the last writer. */
  lemma FinalStep(rs: seq<BatchResult>, j: Join, r: Row)
    requires |rs| > 0 && Usable(rs[0])
    ensures Final(rs[1..], j, if Selects(j, r, rs[0].id) then Applied(j, r, rs[0]) else r)
            == Final(rs, j, r)
  {
    var r' := if Selects(j, r, rs[0].id) then Applied(j, r, rs[0]) else r;
    LastForSameKeys(rs[1..], j, r, r');
    match LastFor(rs[1..], j, r)
    case None =>
    case Some(w) =>
      if Selects(j, r, rs[0].id) {
        AppliedOverwrites(j, r, rs[0], w);
      }
  }

  /** Which results select a row depends only on its index label and key columns. */
  lemma {:induction false} LastForSameKeys(rs: seq<BatchResult>, j: Join, r: Row, r': Row)
    requires SameRecord(r, r')
    ensures LastFor(rs, j, r') == LastFor(rs, j, r)
  {
    if |rs| > 0 {
      LastForSameKeys(rs[1..], j, r, r');
    }
  }

  /** Geocoder.py `process_census_results` with the evident intent of its
      comment: the result with id `k` lands on the row labelled `k - 1`; a result whose
      label is not in the table is dropped. */
  function MergeByPosition(rs: seq<BatchResult>, t: Table, c: Counters): (m: Merged)
    ensures |m.table| == |t|
    ensures forall i :: 0 <= i < |t| ==> SameRecord(t[i], m.table[i])
    ensures forall i :: 0 <= i < |t| ==>
              (m.table[i].latitude == t[i].latitude && m.table[i].longitude == t[i].longitude)
    // rows no usable result points at are untouched
    ensures forall i :: 0 <= i < |t| ==>
              (forall k :: 0 <= k < |rs| && Usable(rs[k]) ==> rs[k].id != t[i].index + 1)
              ==> m.table[i] == t[i]
    // a row a usable result points at holds that result's point, 'census' and match type
    ensures forall i, k :: 0 <= i < |t| && 0 <= k < |rs| && Usable(rs[k]) && rs[k].id == t[i].index + 1
              && (forall k' :: k < k' < |rs| && Usable(rs[k']) ==> rs[k'].id != rs[k].id)
              ==> m.table[i] == Filled(t[i], Match(Point(rs[k].lon.value, rs[k].lat.value), Census,
                                                   Label(rs[k].matchtype)))
    ensures m.counters.successes.Get(Census) == c.successes.Get(Census) + CountUsable(rs)
    ensures m.counters.Attempts(Census) == c.Attempts(Census) + |rs|
    ensures OnlyTouches(c, m.counters, Census)
  {
    var m := MergeWhere(rs, t, ByLabel, c);
    forall i, k | 0 <= i < |t| && 0 <= k < |rs| && Usable(rs[k]) && rs[k].id == t[i].index + 1
              && (forall k' :: k < k' < |rs| && Usable(rs[k']) ==> rs[k'].id != rs[k].id)
      ensures LastFor(rs, ByLabel, t[i]) == Some(rs[k])
    {
      LastForIsLast(rs, ByLabel, t[i], k);
    }
    m
  }

  /** GeocoderBatch.py `process_census_results`: every row whose id column equals
      the result's id is updated, duplicates included; an id that matches no row
      changes nothing in the table, yet a usable result still counts a success. */
  function MergeById(rs: seq<BatchResult>, t: Table, column: string, c: Counters): (m: Merged)
    ensures |m.table| == |t|
    ensures forall i :: 0 <= i < |t| ==> SameRecord(t[i], m.table[i])
    ensures forall i :: 0 <= i < |t| ==>
              (forall k :: 0 <= k < |rs| && Usable(rs[k]) ==> !Selects(ByColumn(column), t[i], rs[k].id))
              ==> m.table[i] == t[i]
    ensures forall i, k :: 0 <= i < |t| && 0 <= k < |rs| && Usable(rs[k])
              && Selects(ByColumn(column), t[i], rs[k].id)
              && (forall k' :: k < k' < |rs| && Usable(rs[k']) ==> rs[k'].id != rs[k].id)
              ==> m.table[i] == Filled(t[i], Match(Point(rs[k].lon.value, rs[k].lat.value), Census,
                                                   Label(rs[k].matchtype)))
                                 .(latitude := rs[k].lat, longitude := rs[k].lon)
    ensures m.counters.successes.Get(Census) == c.successes.Get(Census) + CountUsable(rs)
    ensures m.counters.Attempts(Census) == c.Attempts(Census) + |rs|
    ensures OnlyTouches(c, m.counters, Census)
  {
    var m := MergeWhere(rs, t, ByColumn(column), c);
    forall i, k | 0 <= i < |t| && 0 <= k < |rs| && Usable(rs[k])
              && Selects(ByColumn(column), t[i], rs[k].id)
              && (forall k' :: k < k' < |rs| && Usable(rs[k']) ==> rs[k'].id != rs[k].id)
      ensures LastFor(rs, ByColumn(column), t[i]) == Some(rs[k])
    {
      LastForIsLast(rs, ByColumn(column), t[i], k);
    }
    m
  }

  /** A usable result that selects the row and is not followed by another usable
      result with the same id is the last writer of that row. */
  lemma {:induction false} LastForIsLast(rs: seq<BatchResult>, j: Join, r: Row, k: nat)
    requires k < |rs| && Usable(rs[k]) && Selects(j, r, rs[k].id)
    requires forall k' :: k < k' < |rs| && Usable(rs[k']) ==> rs[k'].id != rs[k].id
    ensures LastFor(rs, j, r) == Some(rs[k])
  {
    if k == 0 {
      assert LastFor(rs[1..], j, r).None? by {
        forall k' | 0 <= k' < |rs[1..]| && Usable(rs[1..][k'])
          ensures !Selects(j, r, rs[1..][k'].id)
        {
          assert rs[1..][k'] == rs[k' + 1];
          SelectsOneId(j, r, rs[k].id, rs[k' + 1].id);
        }
      }
    } else {
      LastForIsLast(rs[1..], j, r, k - 1);
    }
  }

  /** A row is selected by at most one id. */
  lemma SelectsOneId(j: Join, r: Row, a: int, b: int)
    requires Selects(j, r, a) && a != b
    ensures !Selects(j, r, b)
  {
  }

  // ------------------------------------------- the index lookup as written

  /** Some row carries this index label. */
  predicate HasLabel(t: Table, l: int) {
    exists i :: 0 <= i < |t| && t[i].index == l
  }

  /** The row pandas creates for `df.loc[idx, col] = v` when `idx` is not an index
      label: every other column of the new row is missing. */
  function Phantom(res: BatchResult): (r: Row)
    requires Usable(res)
    ensures r.index == res.id - 1 && r.address == Address(NaN, NaN, NaN, NaN)
  {
    Applied(ByLabel, Row(res.id - 1, Address(NaN, NaN, NaN, NaN), map[], None, None, None, None, None), res)
  }

  /** Geocoder.py `process_census_results` as written: `df.loc[int(id) - 1, ...] = ...`
      is a label lookup, and a label that is not in the index makes pandas append
      a new row under that label instead of failing. */
  function MergeByPositionAsWritten(rs: seq<BatchResult>, t: Table, c: Counters): (m: Merged)
    ensures |m.table| >= |t|
    ensures forall i :: 0 <= i < |t| ==> SameRecord(t[i], m.table[i])
    ensures m.counters.successes.Get(Census) == c.successes.Get(Census) + CountUsable(rs)
    ensures m.counters.Attempts(Census) == c.Attempts(Census) + |rs|
    ensures OnlyTouches(c, m.counters, Census)
  {
    if |rs| == 0 then Merged(t, c)
    else
      var res := rs[0];
      if Usable(res) then
        var t' := if HasLabel(t, res.id - 1) then UpdateWhere(t, ByLabel, res) else t + [Phantom(res)];
        var m := MergeByPositionAsWritten(rs[1..], t', c.RecordSuccess(Census));
        OnlyTouchesChain(c, c.RecordSuccess(Census), m.counters, Census);
        m
      else
        var m := MergeByPositionAsWritten(rs[1..], t, c.RecordFailure(Census));
        OnlyTouchesChain(c, c.RecordFailure(Census), m.counters, Census);
        m
  }

  /** When every usable id names a row of a freshly read table, the code as written
      and the corrected merge agree. */
  lemma {:induction false} AsWrittenAgreesInRange(rs: seq<BatchResult>, t: Table, c: Counters)
    requires FreshIndex(t)
    requires forall k :: 0 <= k < |rs| && Usable(rs[k]) ==> 1 <= rs[k].id <= |t|
    ensures MergeByPositionAsWritten(rs, t, c) == MergeWhere(rs, t, ByLabel, c)
  {
    if |rs| > 0 {
      var res := rs[0];
      if Usable(res) {
        assert t[res.id - 1].index == res.id - 1;
        var t' := UpdateWhere(t, ByLabel, res);
        assert FreshIndex(t');
        AsWrittenAgreesInRange(rs[1..], t', c.RecordSuccess(Census));
      } else {
        AsWrittenAgreesInRange(rs[1..], t, c.RecordFailure(Census));
      }
    }
  }

  /** The discrepancy: a usable result whose id is one past the last row of a
      freshly read table adds a row with no address instead of being dropped. */
  lemma AsWrittenAppendsPhantomRow(t: Table, res: BatchResult, c: Counters)
    requires FreshIndex(t) && Usable(res) && res.id == |t| + 1
    ensures var m := MergeByPositionAsWritten([res], t, c);
            |m.table| == |t| + 1 && m.table[|t|].address == Address(NaN, NaN, NaN, NaN)
            && m.table[|t|].geometry.Some?
    ensures |MergeByPosition([res], t, c).table| == |t|
  {
    assert !HasLabel(t, res.id - 1);
    assert [res][1..] == [];
  }
}

=== FILE: remaining.dfy ===
/**
  `geocode_remaining_addresses` (Geocoder.py): every row whose `geometry` is
  still missing after the Census batch is sent, as free text, to OpenCage and
  then, if OpenCage does not answer, to Nominatim. Census is never asked again.

  The rows to visit are fixed when the mask is taken; each answer is written
  with `df.loc[idx, col] = v`, which writes every row whose index label is
  `idx`, not just the row being visited.
 */
module Remaining {
  import opened Options
  import opened Stats
  import opened Providers
  import opened Table
  import opened Cascade

  /** The replies to the calls the pass makes. Every row is its own network
      request, so a reply depends on the row's position as well as on the
      query: two rows with the same address may be answered differently. */
  datatype Calls = Calls(
    opencage: (nat, string) -> OpenCageReply,
    nominatim: (nat, string) -> NominatimReply)

  /** The table after the pass, or the table as far as the pass got when an
      uncaught Nominatim exception escaped (earlier rows were updated in place). */
  datatype Pass =
    | Finished(table: Table, counters: Counters)
    | Interrupted(table: Table, counters: Counters)

  /** The point, service and score the fallback chain settles on, read off the
      two replies alone. */
  function Answer(ro: OpenCageReply, rn: NominatimReply): (m: Option<Match>)
    ensures m.Some? <==> OpenCageAccepts(ro) || NominatimAccepts(rn)
    ensures m.Some? ==> (m.value.service == OpenCage <==> OpenCageAccepts(ro))
  {
    if OpenCageAccepts(ro) then
      var top := ro.candidates[0];
      Some(Match(Point(top.lng.value, top.lat.value), OpenCage, Confidence(top.confidence)))
    else if rn.Location? then
      Some(Match(Point(rn.longitude, rn.latitude), Nominatim, Label("N/A")))
    else
      None
  }

  /** The OpenCage-then-Nominatim chain for one row. */
  function RowAttempt(ro: OpenCageReply, rn: NominatimReply, c: Counters): (a: Attempt)
    ensures OpenCageAccepts(ro) ==> a == GeocodeOpenCage(ro, c)
    ensures !OpenCageAccepts(ro) ==>
              && (a.Raised? <==> rn.OtherFailure?)
              && Recorded(c, a.counters, OpenCage, OpenCageOutcome(ro))
              && (a.Answered? && a.found.Some? ==> SucceededOnce(c, a.counters, Nominatim))
              && (a.Answered? && a.found.None? ==> FailedOnce(c, a.counters, Nominatim))
              && (a.Raised? ==> Untouched(c, a.counters, Nominatim))
    ensures a.Answered? ==> a.found == Answer(ro, rn)
    ensures Untouched(c, a.counters, Census)
  {
    var opencage := GeocodeOpenCage(ro, c);
    if opencage.found.Some? then opencage
    else
      var nominatim := GeocodeNominatim(rn, opencage.counters);
      if nominatim.Raised? || nominatim.found.Some? then nominatim
      else Answered(None, nominatim.counters)
  }

  /** The same chain is the generic cascade over [OpenCage, Nominatim]. */
  lemma RowAttemptIsFirstAccepted(ro: OpenCageReply, rn: NominatimReply, c: Counters)
    ensures RowAttempt(ro, rn, c) == FirstAccepted([FromOpenCage(ro), FromNominatim(rn)], c)
  {
    var rs := [FromOpenCage(ro), FromNominatim(rn)];
    var a0 := Try(rs[0], c);
    if a0.found.None? {
      assert rs[1..] == [rs[1]];
      assert FirstAccepted(rs, c) == FirstAccepted([rs[1]], a0.counters);
      var a1 := Try(rs[1], a0.counters);
      if a1.Answered? && a1.found.None? {
        assert [rs[1]][1..] == [];
        assert FirstAccepted([rs[1]], a0.counters) == FirstAccepted([], a1.counters);
      }
    }
  }

  /** The row with a match written into it, or unchanged when there is none. */
  function Apply(r: Row, m: Option<Match>): Row {
    match m
    case Some(x) => Filled(r, x)
    case None => r
  }

  /** What the chain makes of one row on its own: unchanged when it already has
      a geometry or both providers miss; otherwise filled from the first
      provider that answers. */
  function Resolved(r: Row, ro: OpenCageReply, rn: NominatimReply): (r': Row)
    ensures SameRecord(r, r') && r'.latitude == r.latitude && r'.longitude == r.longitude
    ensures r.geometry.Some? ==> r' == r
    ensures r.geometry.None? ==> (r'.geometry.Some? <==> OpenCageAccepts(ro) || NominatimAccepts(rn))
    ensures r'.geometry.Some? && r.geometry.None? ==>
              r'.service == Some(if OpenCageAccepts(ro) then OpenCage else Nominatim)
  {
    if r.geometry.Some? then r else Apply(r, Answer(ro, rn))
  }

  /** Resolving a row twice with the same replies is resolving it once. */
  lemma ResolvedIdempotent(r: Row, ro: OpenCageReply, rn: NominatimReply)
    ensures Resolved(Resolved(r, ro, rn), ro, rn) == Resolved(r, ro, rn)
  {
  }

  // ------------------------------------------------------- rows by position

  /** The reply to row k's OpenCage call, whose query is "street, city, state zip". */
  function OpenCageAt(t: Table, k: nat, calls: Calls): OpenCageReply
    requires k < |t|
  {
    calls.opencage(k, FreeText(t[k].address))
  }

  function NominatimAt(t: Table, k: nat, calls: Calls): NominatimReply
    requires k < |t|
  {
    calls.nominatim(k, FreeText(t[k].address))
  }

  /** What the chain writes for row k: nothing when the row already has a
      geometry or both providers miss. */
  function FillAt(t: Table, k: nat, calls: Calls): Option<Match>
    requires k < |t|
  {
    if t[k].geometry.Some? then None else Answer(OpenCageAt(t, k, calls), NominatimAt(t, k, calls))
  }

  /** Row k as the chain resolves it on its own. */
  function ResolvedAt(t: Table, k: nat, calls: Calls): Row
    requires k < |t|
  {
    Resolved(t[k], OpenCageAt(t, k, calls), NominatimAt(t, k, calls))
  }

  /** Row k makes the pass stop with an escaped exception. */
  predicate AbortsAt(t: Table, k: nat, calls: Calls)
    requires k < |t|
  {
    t[k].geometry.None? && !OpenCageAccepts(OpenCageAt(t, k, calls)) && NominatimAt(t, k, calls).OtherFailure?
  }

  /** How a row without a geometry fares in the fallback chain. */
  datatype Route =
    | OpenCageFills     // OpenCage answers
    | OpenCageBreaks    // OpenCage counts a success, then raises building the point
    | ReachesNominatim  // OpenCage does not answer, so Nominatim is asked
    | NominatimFills    // ... and Nominatim answers

  predicate TakesAt(t: Table, k: nat, calls: Calls, route: Route)
    requires k < |t|
  {
    var ro := OpenCageAt(t, k, calls);
    && t[k].geometry.None?
    && match route
       case OpenCageFills => OpenCageAccepts(ro)
       case OpenCageBreaks => OpenCageConfident(ro) && !OpenCageAccepts(ro)
       case ReachesNominatim => !OpenCageAccepts(ro)
       case NominatimFills => !OpenCageAccepts(ro) && NominatimAccepts(NominatimAt(t, k, calls))
  }

  /** Number of rows at position k or later that take `route`. */
  function Count(t: Table, k: nat, calls: Calls, route: Route): (n: nat)
    requires k <= |t|
    ensures n <= |t| - k
    decreases |t| - k
  {
    if k == |t| then 0 else (if TakesAt(t, k, calls, route) then 1 else 0) + Count(t, k + 1, calls, route)
  }

  /** Every row without a geometry either gets an OpenCage answer or goes on to Nominatim. */
  lemma {:induction false} CountMissingSplits(t: Table, k: nat, calls: Calls)
    requires k <= |t|
    ensures Count(t, k, calls, OpenCageFills) + Count(t, k, calls, ReachesNominatim) == CountMissing(t[k..])
    decreases |t| - k
  {
    if k < |t| {
      CountMissingSplits(t, k + 1, calls);
      assert t[k..][1..] == t[k + 1..];
    }
  }

  // ------------------------------------------------------ writes by label

  /** A row at position k or later is missing its geometry and carries label
      `l`: the pass may write through `l`. */
  predicate Pending(t: Table, k: nat, l: int) {
    exists j :: k <= j < |t| && t[j].geometry.None? && t[j].index == l
  }

  /** `df.loc[idx, 'geometry'] = ...` and the two assignments after it: every
      row whose index label is `idx` gets the match. */
  function WriteLabel(cur: Table, l: int, m: Match): (t': Table)
    ensures |t'| == |cur|
    ensures forall i :: 0 <= i < |cur| && cur[i].index != l ==> t'[i] == cur[i]
    ensures forall i :: 0 <= i < |cur| && cur[i].index == l ==>
              && SameRecord(cur[i], t'[i])
              && t'[i].geometry == Some(m.point) && t'[i].service == Some(m.service)
              && t'[i].matchScore == Some(m.score)
              && t'[i].latitude == cur[i].latitude && t'[i].longitude == cur[i].longitude
  {
    seq(|cur|, i requires 0 <= i < |cur| => if cur[i].index == l then Filled(cur[i], m) else cur[i])
  }

  /** The match written by the last row at position k or later that carries
      label `l` and that the chain fills: the values every row labelled `l`
      ends with. */
  function LastFill(t: Table, k: nat, l: int, calls: Calls): (m: Option<Match>)
    requires k <= |t|
    ensures m.Some? ==> exists j :: k <= j < |t| && t[j].index == l && FillAt(t, j, calls) == m
    ensures m.None? <==> forall j :: k <= j < |t| && t[j].index == l ==> FillAt(t, j, calls).None?
    decreases |t| - k
  {
    if k == |t| then None
    else
      var later := LastFill(t, k + 1, l, calls);
      if later.Some? then later
      else if t[k].index == l then FillAt(t, k, calls)
      else None
  }

  /** The match that survives on `l` is written by a row `j` after which no row
      carrying `l` is filled. */
  lemma {:induction false} LastFillIsLast(t: Table, k: nat, l: int, calls: Calls) returns (j: nat)
    requires k <= |t| && LastFill(t, k, l, calls).Some?
    ensures k <= j < |t| && t[j].index == l && FillAt(t, j, calls) == LastFill(t, k, l, calls)
    ensures forall j' :: j < j' < |t| && t[j'].index == l ==> FillAt(t, j', calls).None?
    decreases |t| - k
  {
    if LastFill(t, k + 1, l, calls).Some? {
      j := LastFillIsLast(t, k + 1, l, calls);
    } else {
      j := k;
    }
  }

  /** Row i at the end of a completed pass. */
  function Settled(t: Table, i: nat, calls: Calls): Row
    requires i < |t|
  {
    Apply(t[i], LastFill(t, 0, t[i].index, calls))
  }

  /** With distinct labels the last writer of a row's label is the row itself. */
  lemma LastFillOwn(t: Table, k: nat, i: nat, calls: Calls)
    requires DistinctLabels(t) && k <= i < |t|
    ensures LastFill(t, k, t[i].index, calls) == FillAt(t, i, calls)
  {
    var m := LastFill(t, k, t[i].index, calls);
    if m.Some? {
      var j :| k <= j < |t| && t[j].index == t[i].index && FillAt(t, j, calls) == m;
      assert j == i;
    }
  }

  /** With distinct labels, each row's label is written only by the row itself. */
  lemma OwnLabels(t: Table, calls: Calls)
    ensures DistinctLabels(t) ==> forall i :: 0 <= i < |t| ==> LastFill(t, 0, t[i].index, calls) == FillAt(t, i, calls)
    ensures DistinctLabels(t) ==> forall i :: 0 <= i < |t| && t[i].geometry.Some? ==> !Pending(t, 0, t[i].index)
  {
    if DistinctLabels(t) {
      forall i | 0 <= i < |t|
        ensures LastFill(t, 0, t[i].index, calls) == FillAt(t, i, calls)
      {
        LastFillOwn(t, 0, i, calls);
      }
      forall i | 0 <= i < |t| && t[i].geometry.Some?
        ensures !Pending(t, 0, t[i].index)
      {
      }
    }
  }

  // ------------------------------------------------------------- the loop

  /** The loop `for idx, row in df[mask].iterrows()` from position k on. `t` is
      the frame as it was when the mask was taken, which `iterrows` reads; `cur`
      is the frame the loop writes to. */
  function FillRows(t: Table, k: nat, cur: Table, calls: Calls, c: Counters): (p: Pass)
    requires k <= |t|
    ensures |p.table| == |cur|
    ensures forall i :: 0 <= i < |cur| ==>
              SameRecord(cur[i], p.table[i])
              && p.table[i].latitude == cur[i].latitude && p.table[i].longitude == cur[i].longitude
    ensures Untouched(c, p.counters, Census)
    decreases |t| - k
  {
    if k == |t| then Finished(cur, c)
    else if t[k].geometry.Some? then FillRows(t, k + 1, cur, calls, c)
    else
      var a := RowAttempt(OpenCageAt(t, k, calls), NominatimAt(t, k, calls), c);
      if a.Raised? then Interrupted(cur, a.counters)
      else if a.found.Some? then FillRows(t, k + 1, WriteLabel(cur, t[k].index, a.found.value), calls, a.counters)
      else FillRows(t, k + 1, cur, calls, a.counters)
  }

  /** The pass stops early exactly when some row's Nominatim call raises an
      exception other than a timeout or unavailability. */
  lemma {:induction false} FillRowsInterrupted(t: Table, k: nat, cur: Table, calls: Calls, c: Counters)
    requires k <= |t|
    ensures FillRows(t, k, cur, calls, c).Interrupted? <==> exists j :: k <= j < |t| && AbortsAt(t, j, calls)
    decreases |t| - k
  {
    if k < |t| {
      var a := RowAttempt(OpenCageAt(t, k, calls), NominatimAt(t, k, calls), c);
      var c' := if t[k].geometry.Some? then c else a.counters;
      var cur' := if t[k].geometry.None? && a.Answered? && a.found.Some?
                  then WriteLabel(cur, t[k].index, a.found.value) else cur;
      FillRowsInterrupted(t, k + 1, cur', calls, c');
      if AbortsAt(t, k, calls) {
        assert FillRows(t, k, cur, calls, c).Interrupted?;
      } else {
        assert FillRows(t, k, cur, calls, c) == FillRows(t, k + 1, cur', calls, c');
      }
    }
  }

  /** A row is written only through a label that a row still to be visited and
      missing its geometry carries. */
  lemma {:induction false} FillRowsLabels(t: Table, k: nat, cur: Table, calls: Calls, c: Counters)
    requires k <= |t|
    ensures forall i :: 0 <= i < |cur| && !Pending(t, k, cur[i].index) ==>
              FillRows(t, k, cur, calls, c).table[i] == cur[i]
    decreases |t| - k
  {
    if k < |t| {
      var a := RowAttempt(OpenCageAt(t, k, calls), NominatimAt(t, k, calls), c);
      var c' := if t[k].geometry.Some? then c else a.counters;
      var cur' := if t[k].geometry.None? && a.Answered? && a.found.Some?
                  then WriteLabel(cur, t[k].index, a.found.value) else cur;
      FillRowsLabels(t, k + 1, cur', calls, c');
      forall i | 0 <= i < |cur| && !Pending(t, k, cur[i].index)
        ensures FillRows(t, k, cur, calls, c).table[i] == cur[i]
      {
        assert !Pending(t, k + 1, cur[i].index);
        if t[k].geometry.None? {
          assert Pending(t, k, t[k].index);
          assert cur'[i] == cur[i];
        }
      }
    }
  }

  /** A completed pass leaves every row as the last row sharing its label that
      the chain filled wrote it, and rows whose label no filled row carries as
      they were. */
  lemma {:induction false} FillRowsSettles(t: Table, k: nat, cur: Table, calls: Calls, c: Counters)
    requires k <= |t|
    ensures var p := FillRows(t, k, cur, calls, c);
            p.Finished? ==> forall i :: 0 <= i < |cur| ==> p.table[i] == Apply(cur[i], LastFill(t, k, cur[i].index, calls))
    decreases |t| - k
  {
    var p := FillRows(t, k, cur, calls, c);
    if k < |t| && p.Finished? {
      var a := RowAttempt(OpenCageAt(t, k, calls), NominatimAt(t, k, calls), c);
      var c' := if t[k].geometry.Some? then c else a.counters;
      var cur' := if t[k].geometry.None? && a.found.Some? then WriteLabel(cur, t[k].index, a.found.value) else cur;
      assert p == FillRows(t, k + 1, cur', calls, c');
      FillRowsSettles(t, k + 1, cur', calls, c');
      assert FillAt(t, k, calls) == (if t[k].geometry.None? then a.found else None);
      forall i | 0 <= i < |cur|
        ensures p.table[i] == Apply(cur[i], LastFill(t, k, cur[i].index, calls))
      {
        assert cur'[i] == if t[k].geometry.None? && a.found.Some? && cur[i].index == t[k].index
                          then Filled(cur[i], a.found.value) else cur[i];
      }
    }
  }

  /** OpenCage counts a success for each row it answers or breaks on, and a
      failure for each row it does not answer. */
  lemma {:induction false} FillRowsCountsOpenCage(t: Table, k: nat, cur: Table, calls: Calls, c: Counters)
    requires k <= |t|
    ensures var p := FillRows(t, k, cur, calls, c);
            p.Finished? ==>
            && p.counters.successes.Get(OpenCage)
               == c.successes.Get(OpenCage) + Count(t, k, calls, OpenCageFills) + Count(t, k, calls, OpenCageBreaks)
            && p.counters.failures.Get(OpenCage) == c.failures.Get(OpenCage) + Count(t, k, calls, ReachesNominatim)
    decreases |t| - k
  {
    if k < |t| && FillRows(t, k, cur, calls, c).Finished? {
      var a := RowAttempt(OpenCageAt(t, k, calls), NominatimAt(t, k, calls), c);
      var c' := if t[k].geometry.Some? then c else a.counters;
      var cur' := if t[k].geometry.None? && a.found.Some? then WriteLabel(cur, t[k].index, a.found.value) else cur;
      FillRowsCountsOpenCage(t, k + 1, cur', calls, c');
      assert FillRows(t, k, cur, calls, c).counters == FillRows(t, k + 1, cur', calls, c').counters;
    }
  }

  /** Nominatim is asked once per row OpenCage leaves unanswered and answers for
      the rows that take the `NominatimFills` route. */
  lemma {:induction false} FillRowsCountsNominatim(t: Table, k: nat, cur: Table, calls: Calls, c: Counters)
    requires k <= |t|
    ensures var p := FillRows(t, k, cur, calls, c);
            p.Finished? ==>
            && p.counters.Attempts(Nominatim) == c.Attempts(Nominatim) + Count(t, k, calls, ReachesNominatim)
            && p.counters.successes.Get(Nominatim) == c.successes.Get(Nominatim) + Count(t, k, calls, NominatimFills)
    decreases |t| - k
  {
    if k < |t| && FillRows(t, k, cur, calls, c).Finished? {
      var a := RowAttempt(OpenCageAt(t, k, calls), NominatimAt(t, k, calls), c);
      var c' := if t[k].geometry.Some? then c else a.counters;
      var cur' := if t[k].geometry.None? && a.found.Some? then WriteLabel(cur, t[k].index, a.found.value) else cur;
      FillRowsCountsNominatim(t, k + 1, cur', calls, c');
      assert FillRows(t, k, cur, calls, c).counters == FillRows(t, k + 1, cur', calls, c').counters;
    }
  }

  /** Position of the first row at k or later that makes the pass stop, or `|t|`. */
  function FirstAbort(t: Table, k: nat, calls: Calls): (a: nat)
    requires k <= |t|
    ensures k <= a <= |t|
    ensures forall j :: k <= j < a ==> !AbortsAt(t, j, calls)
    ensures a < |t| ==> AbortsAt(t, a, calls)
    decreases |t| - k
  {
    if k == |t| || AbortsAt(t, k, calls) then k else FirstAbort(t, k + 1, calls)
  }

  /** A pass that meets an aborting row at `a` is the pass over the rows before
      it, followed by that row's OpenCage call and the Nominatim call that raised. */
  lemma {:induction false} FillRowsPrefix(t: Table, a: nat, k: nat, cur: Table, calls: Calls, c: Counters)
    requires k <= a < |t| && AbortsAt(t, a, calls)
    requires forall j :: k <= j < a ==> !AbortsAt(t, j, calls)
    ensures var q := FillRows(t[..a], k, cur, calls, c);
            FillRows(t, k, cur, calls, c)
            == Interrupted(q.table, RowAttempt(OpenCageAt(t, a, calls), NominatimAt(t, a, calls), q.counters).counters)
    decreases a - k
  {
    var s := t[..a];
    if k < a {
      assert s[k] == t[k];
      assert !AbortsAt(t, k, calls);
      var ra := RowAttempt(OpenCageAt(t, k, calls), NominatimAt(t, k, calls), c);
      var c' := if t[k].geometry.Some? then c else ra.counters;
      var cur' := if t[k].geometry.None? && ra.found.Some? then WriteLabel(cur, t[k].index, ra.found.value) else cur;
      FillRowsPrefix(t, a, k + 1, cur', calls, c');
      assert FillRows(s, k, cur, calls, c) == FillRows(s, k + 1, cur', calls, c');
      assert FillRows(t, k, cur, calls, c) == FillRows(t, k + 1, cur', calls, c');
    }
  }

  /** An interrupted pass keeps everything the rows before the first aborting
      row did: their writes, settled as a completed pass over them, and their
      counts, followed by the aborting row's OpenCage call. */
  lemma InterruptedPrefix(t: Table, calls: Calls, c: Counters)
    ensures FillRows(t, 0, t, calls, c).Interrupted? ==>
              var a := FirstAbort(t, 0, calls);
              var q := FillRows(t[..a], 0, t, calls, c);
              && a < |t| && q.Finished?
              && FillRows(t, 0, t, calls, c)
                 == Interrupted(q.table, RowAttempt(OpenCageAt(t, a, calls), NominatimAt(t, a, calls), q.counters).counters)
              && forall i :: 0 <= i < |t| ==> q.table[i] == Apply(t[i], LastFill(t[..a], 0, t[i].index, calls))
  {
    FillRowsInterrupted(t, 0, t, calls, c);
    if FillRows(t, 0, t, calls, c).Interrupted? {
      var a := FirstAbort(t, 0, calls);
      var s := t[..a];
      FillRowsPrefix(t, a, 0, t, calls, c);
      forall j | 0 <= j < a
        ensures !AbortsAt(s, j, calls)
      {
        assert s[j] == t[j];
        assert !AbortsAt(t, j, calls);
        assert OpenCageAt(s, j, calls) == OpenCageAt(t, j, calls);
        assert NominatimAt(s, j, calls) == NominatimAt(t, j, calls);
      }
      FillRowsInterrupted(s, 0, t, calls, c);
      FillRowsSettles(s, 0, t, calls, c);
    }
  }

  /** The early return is only a shortcut: the loop does nothing when no row is
      missing a geometry. */
  lemma {:induction false} NothingMissingNothingDone(t: Table, k: nat, cur: Table, calls: Calls, c: Counters)
    requires k <= |t|
    requires forall j :: k <= j < |t| ==> t[j].geometry.Some?
    ensures FillRows(t, k, cur, calls, c) == Finished(cur, c)
    decreases |t| - k
  {
    if k < |t| {
      NothingMissingNothingDone(t, k + 1, cur, calls, c);
    }
  }

  /** When no row still to be visited gets an answer or aborts, the loop runs
      to the end and writes nothing. */
  lemma {:induction false} NothingFilledNothingWritten(t: Table, k: nat, cur: Table, calls: Calls, c: Counters)
    requires k <= |t|
    requires forall j :: k <= j < |t| ==> FillAt(t, j, calls).None? && !AbortsAt(t, j, calls)
    ensures var p := FillRows(t, k, cur, calls, c);
            p.Finished? && p.table == cur
    decreases |t| - k
  {
    if k < |t| {
      var a := RowAttempt(OpenCageAt(t, k, calls), NominatimAt(t, k, calls), c);
      var c' := if t[k].geometry.Some? then c else a.counters;
      assert FillAt(t, k, calls).None? && !AbortsAt(t, k, calls);
      NothingFilledNothingWritten(t, k + 1, cur, calls, c');
      assert FillRows(t, k, cur, calls, c) == FillRows(t, k + 1, cur, calls, c');
    }
  }

  // ------------------------------------------------------------- the pass

  /** `geocode_remaining_addresses(df)`: only rows whose label a row missing
      its geometry carries are written; a completed pass leaves each row as the
      last such row the chain filled wrote it, which for distinct labels is the
      row's own resolution; every provider call is counted; with nothing
      missing the table and counters come back as they were. */
  function RemainingPass(t: Table, calls: Calls, c: Counters): (p: Pass)
    ensures CountMissing(t) == 0 ==> p == Finished(t, c)
    ensures |p.table| == |t|
    ensures forall i :: 0 <= i < |t| ==> SameRecord(t[i], p.table[i])
    ensures forall i :: 0 <= i < |t| && !Pending(t, 0, t[i].index) ==> p.table[i] == t[i]
    ensures DistinctLabels(t) ==> forall i :: 0 <= i < |t| && t[i].geometry.Some? ==> p.table[i] == t[i]
    ensures p.Interrupted? <==> exists i :: 0 <= i < |t| && AbortsAt(t, i, calls)
    ensures p.Finished? ==> forall i :: 0 <= i < |t| ==> p.table[i] == Settled(t, i, calls)
    // an interrupted pass keeps what the rows before the first aborting one did
    ensures p.Interrupted? ==>
              var a := FirstAbort(t, 0, calls);
              var q := FillRows(t[..a], 0, t, calls, c);
              && a < |t| && q.Finished?
              && (forall i :: 0 <= i < |t| ==> p.table[i] == Apply(t[i], LastFill(t[..a], 0, t[i].index, calls)))
              && p.counters == RowAttempt(OpenCageAt(t, a, calls), NominatimAt(t, a, calls), q.counters).counters
    ensures p.Finished? && DistinctLabels(t) ==> forall i :: 0 <= i < |t| ==> p.table[i] == ResolvedAt(t, i, calls)
    ensures Untouched(c, p.counters, Census)
    ensures p.Finished? ==>
              && p.counters.Attempts(OpenCage)
                 == c.Attempts(OpenCage) + CountMissing(t) + Count(t, 0, calls, OpenCageBreaks)
              && p.counters.successes.Get(OpenCage)
                 == c.successes.Get(OpenCage) + Count(t, 0, calls, OpenCageFills) + Count(t, 0, calls, OpenCageBreaks)
              && p.counters.Attempts(Nominatim) == c.Attempts(Nominatim) + Count(t, 0, calls, ReachesNominatim)
              && p.counters.successes.Get(Nominatim)
                 == c.successes.Get(Nominatim) + Count(t, 0, calls, NominatimFills)
  {
    FillRowsInterrupted(t, 0, t, calls, c);
    FillRowsLabels(t, 0, t, calls, c);
    FillRowsSettles(t, 0, t, calls, c);
    FillRowsCountsOpenCage(t, 0, t, calls, c);
    FillRowsCountsNominatim(t, 0, t, calls, c);
    CountMissingSplits(t, 0, calls);
    assert t[0..] == t;
    OwnLabels(t, calls);
    InterruptedPrefix(t, calls, c);
    if CountMissing(t) == 0 then
      NothingMissingNothingDone(t, 0, t, calls, c);
      Finished(t, c)
    else
      FillRows(t, 0, t, calls, c)
  }

  /** Running the pass again with the same replies changes nothing in the
      table: every label some row was filled through is now placed, and rows
      still missing their geometry are missed again by both providers. */
  lemma RemainingPassSettles(t: Table, calls: Calls, c: Counters, c2: Counters)
    requires RemainingPass(t, calls, c).Finished?
    ensures var t' := RemainingPass(t, calls, c).table;
            var p := RemainingPass(t', calls, c2);
            p.Finished? && p.table == t'
  {
    var t' := RemainingPass(t, calls, c).table;
    forall j | 0 <= j < |t'|
      ensures FillAt(t', j, calls).None? && !AbortsAt(t', j, calls)
    {
      assert !AbortsAt(t, j, calls);
      assert t'[j] == Settled(t, j, calls);
      if LastFill(t, 0, t[j].index, calls).None? {
        assert FillAt(t, j, calls).None?;
      }
    }
    NothingFilledNothingWritten(t', 0, t', calls, c2);
    if CountMissing(t') == 0 {
      assert RemainingPass(t', calls, c2) == Finished(t', c2);
    }
  }

  /** Two rows share the label `idx`; the first is missing its geometry and
      OpenCage answers it. The assignment by label also rewrites the second row,
      though it already had a geometry. */
  lemma LabelSharedRowRewritten(r0: Row, r1: Row, calls: Calls, c: Counters)
    requires r0.index == r1.index && r0.geometry.None? && r1.geometry.Some?
    requires OpenCageAccepts(calls.opencage(0, FreeText(r0.address)))
    ensures var p := RemainingPass([r0, r1], calls, c);
            && p.Finished?
            && p.table[0].service == Some(OpenCage)
            && p.table[1] == Filled(r1, Answer(calls.opencage(0, FreeText(r0.address)), calls.nominatim(0, FreeText(r0.address))).value)
            && p.table[1].service == Some(OpenCage)
  {
    var t := [r0, r1];
    assert !AbortsAt(t, 0, calls) && !AbortsAt(t, 1, calls);
    assert LastFill(t, 2, r1.index, calls).None?;
    assert FillAt(t, 1, calls).None?;
    assert LastFill(t, 1, r1.index, calls).None?;
    assert LastFill(t, 0, r1.index, calls) == FillAt(t, 0, calls);
  }
}

=== FILE: stats.dfy ===
/**
  Per-provider success/failure accounting. The source keeps two module-level
  dictionaries, `geocoding_successes` and `geocoding_failures`, each keyed by
  'census', 'opencage' and 'nominatim' and starting at zero. A provider call
  bumps at most one success and at most one failure entry: both when a reply
  breaks after its success is counted, and none when Nominatim raises an
  error it does not catch.
 */
module Stats {

  datatype Provider = Census | OpenCage | Nominatim {
    /** The dictionary key, which is also the `geocoding_service` value written to the table. */
    function Name(): string {
      match this
      case Census => "census"
      case OpenCage => "opencage"
      case Nominatim => "nominatim"
    }
  }

  /** One of the two dictionaries: a count per provider. */
  datatype Tally = Tally(census: nat, opencage: nat, nominatim: nat) {
    function Get(p: Provider): nat {
      match p
      case Census => census
      case OpenCage => opencage
      case Nominatim => nominatim
    }

    /** `d[p] += 1`: the entry for `p` goes up by one, no other entry moves. */
    function Bump(p: Provider): (t: Tally)
      ensures t.Get(p) == Get(p) + 1
      ensures forall q :: q != p ==> t.Get(q) == Get(q)
    {
      match p
      case Census => this.(census := census + 1)
      case OpenCage => this.(opencage := opencage + 1)
      case Nominatim => this.(nominatim := nominatim + 1)
    }
  }

  /** `{'census': 0, 'opencage': 0, 'nominatim': 0}` */
  const Zero: Tally := Tally(0, 0, 0)

  /** The pair of dictionaries one module owns. */
  datatype Counters = Counters(successes: Tally, failures: Tally) {
    /** Calls made to provider `p` so far, whatever their outcome. */
    function Attempts(p: Provider): nat {
      successes.Get(p) + failures.Get(p)
    }

    function RecordSuccess(p: Provider): (c: Counters)
      ensures SucceededOnce(this, c, p) && OnlyTouches(this, c, p)
    {
      Counters(successes.Bump(p), failures)
    }

    function RecordFailure(p: Provider): (c: Counters)
      ensures FailedOnce(this, c, p) && OnlyTouches(this, c, p)
    {
      Counters(successes, failures.Bump(p))
    }
  }

  const Initial: Counters := Counters(Zero, Zero)

  predicate Untouched(c: Counters, c': Counters, p: Provider) {
    c'.successes.Get(p) == c.successes.Get(p) && c'.failures.Get(p) == c.failures.Get(p)
  }

  predicate SucceededOnce(c: Counters, c': Counters, p: Provider) {
    c'.successes.Get(p) == c.successes.Get(p) + 1 && c'.failures.Get(p) == c.failures.Get(p)
  }

  predicate FailedOnce(c: Counters, c': Counters, p: Provider) {
    c'.successes.Get(p) == c.successes.Get(p) && c'.failures.Get(p) == c.failures.Get(p) + 1
  }

  /** How one call moves the calling provider's two counters. `SuccessThenFailure`
      is a call that counted its success and then raised while building the
      point, which the same `try` block catches and counts as a failure. */
  datatype Outcome = Success | Failure | SuccessThenFailure

  predicate Recorded(c: Counters, c': Counters, p: Provider, o: Outcome) {
    match o
    case Success => SucceededOnce(c, c', p)
    case Failure => FailedOnce(c, c', p)
    case SuccessThenFailure =>
      c'.successes.Get(p) == c.successes.Get(p) + 1 && c'.failures.Get(p) == c.failures.Get(p) + 1
  }

  /** No provider other than `p` has a counter that moved. */
  predicate OnlyTouches(c: Counters, c': Counters, p: Provider) {
    forall q :: q != p ==> Untouched(c, c', q)
  }

  lemma OnlyTouchesChain(c: Counters, c': Counters, c'': Counters, p: Provider)
    requires OnlyTouches(c, c', p) && OnlyTouches(c', c'', p)
    ensures OnlyTouches(c, c'', p)
  {
    forall q | q != p
      ensures Untouched(c, c'', q)
    {
      assert Untouched(c, c', q) && Untouched(c', c'', q);
    }
  }
}

=== FILE: table.dfy ===
/**
  The address table (a pandas DataFrame in the source). A row keeps its pandas
  index label, the four raw address cells, the integer-valued key columns (such as
  `BatchID` or the id column of a batch file), and the geocoding output
  columns `geometry`, `geocoding_service`, `match_score`, `latitude` and
  `longitude`, each of which may be missing (`None`/`NaN`).
 */
module Table {
  import opened Options
  import opened Stats
  import opened Providers

  /** A text cell that may be missing. */
  datatype Cell = Text(text: string) | NaN

  /** StudentAddress, StudentCity, StudentState, StudentZip (or the columns a caller names). */
  datatype Address = Address(street: Cell, city: Cell, state: Cell, zip: Cell)

  datatype Row = Row(
    index: int,
    address: Address,
    keys: map<string, int>,
    geometry: Option<Point>,
    service: Option<Provider>,
    matchScore: Option<Score>,
    latitude: Option<Coordinate>,
    longitude: Option<Coordinate>)

  type Table = seq<Row>

  /** A table as `pd.read_csv` builds it: index labels 0, 1, ..., n - 1. */
  predicate FreshIndex(t: Table) {
    forall i :: 0 <= i < |t| ==> t[i].index == i
  }

  /** No index label is carried by two rows, so `df.loc[label]` is one row. */
  predicate DistinctLabels(t: Table) {
    forall i, j :: 0 <= i < |t| && 0 <= j < |t| && i != j ==> t[i].index != t[j].index
  }

  /** A table `pd.read_csv` builds has distinct labels. */
  lemma FreshIndexDistinct(t: Table)
    requires FreshIndex(t)
    ensures DistinctLabels(t)
  {
  }

  /** How a cell prints inside an f-string: a missing value prints as `nan`. */
  function Show(c: Cell): string {
    match c
    case Text(s) => s
    case NaN => "nan"
  }

  /** The free-text query built for the fallback providers:
      "street, city, state zip". */
  function FreeText(a: Address): string {
    Show(a.street) + ", " + Show(a.city) + ", " + Show(a.state) + " " + Show(a.zip)
  }

  /** Where each cell sits in the query: the street and a comma first, then the
      city and a comma, and the zip after a space at the end; the five
      separator characters make up the rest. */
  lemma FreeTextLayout(a: Address)
    ensures var q := FreeText(a);
            && |q| == |Show(a.street)| + |Show(a.city)| + |Show(a.state)| + |Show(a.zip)| + 5
            && q[..|Show(a.street)| + 2] == Show(a.street) + ", "
            && q[|Show(a.street)| + 2 .. |Show(a.street)| + |Show(a.city)| + 4] == Show(a.city) + ", "
            && q[|q| - |Show(a.zip)| - 1 ..] == " " + Show(a.zip)
  {
    var s, c, z := Show(a.street), Show(a.city), Show(a.zip);
    var rest := Show(a.state) + " " + z;
    assert FreeText(a) == (s + ", ") + (c + ", ") + rest;
    Middle(s + ", ", c + ", ", rest);
    assert FreeText(a) == (s + ", " + c + ", " + Show(a.state)) + (" " + z);
  }

  /** The middle part of a three-way concatenation sits between the other two. */
  lemma Middle(x: string, y: string, w: string)
    ensures (x + y + w)[..|x|] == x
    ensures (x + y + w)[|x| .. |x| + |y|] == y
  {
    assert (x + y + w)[|x| ..] == y + w;
  }

  /** `df.loc[idx, ['geometry', 'geocoding_service', 'match_score']] = m`. */
  function Filled(r: Row, m: Match): (r': Row)
    ensures r'.geometry == Some(m.point) && r'.service == Some(m.service) && r'.matchScore == Some(m.score)
    ensures SameRecord(r, r') && r'.latitude == r.latitude && r'.longitude == r.longitude
  {
    r.(geometry := Some(m.point), service := Some(m.service), matchScore := Some(m.score))
  }

  /** The two rows agree on every column that is not written by geocoding. */
  predicate SameRecord(r: Row, r': Row) {
    r'.index == r.index && r'.address == r.address && r'.keys == r.keys
  }

  /** Rows of the table whose `geometry` is unset (`df['geometry'].isna()`). */
  function CountMissing(t: Table): (n: nat)
    ensures n <= |t|
    ensures n == 0 <==> forall i :: 0 <= i < |t| ==> t[i].geometry.Some?
  {
    if |t| == 0 then 0
    else (if t[0].geometry.None? then 1 else 0) + CountMissing(t[1..])
  }
}

=== FILE: text.dfy ===
/**
  Small string facts the geocoder relies on: Python's `str.strip()` (used on
  every address field sent to the Census batch service) and Python's `str()`
  of a non-negative integer (used to name batch files after their id range).
 */
module Text {

  /** Python's `str.isspace()` for a single character. */
  predicate IsSpace(c: char) {
    var k := c as int;
    (9 <= k <= 13) || (0x1C <= k <= 0x20) || k == 0x85 || k == 0xA0 || k == 0x1680
    || (0x2000 <= k <= 0x200A) || k == 0x2028 || k == 0x2029 || k == 0x202F
    || k == 0x205F || k == 0x3000
  }

  predicate AllSpace(s: string) {
    forall i :: 0 <= i < |s| ==> IsSpace(s[i])
  }

  /** No whitespace at either end. */
  predicate Trimmed(s: string) {
    |s| == 0 || (!IsSpace(s[0]) && !IsSpace(s[|s| - 1]))
  }

  /** Python's `str.lstrip()`: the longest suffix not starting with whitespace. */
  function TrimLeft(s: string): (r: string)
    ensures |r| <= |s| && r == s[|s| - |r|..]
    ensures AllSpace(s[..|s| - |r|])
    ensures |r| == 0 || !IsSpace(r[0])
  {
    if |s| > 0 && IsSpace(s[0]) then TrimLeft(s[1..]) else s
  }

  /** Python's `str.rstrip()`: the longest prefix not ending with whitespace. */
  function TrimRight(s: string): (r: string)
    ensures |r| <= |s| && r == s[..|r|]
    ensures AllSpace(s[|r|..])
    ensures |r| == 0 || !IsSpace(r[|r| - 1])
  {
    if |s| > 0 && IsSpace(s[|s| - 1]) then TrimRight(s[..|s| - 1]) else s
  }

  /** Python's `str.strip()`: a run of `s` whose two neighbours are all whitespace
      and whose own ends are not. */
  function Strip(s: string): (r: string)
    ensures Trimmed(r)
    ensures exists i :: 0 <= i <= |s| - |r| && r == s[i..i + |r|]
                     && AllSpace(s[..i]) && AllSpace(s[i + |r|..])
  {
    var l := TrimLeft(s);
    var r := TrimRight(l);
    var i := |s| - |l|;
    assert l == s[i..];
    assert r == l[..|r|];
    assert s[i..i + |r|] == s[i..][..|r|];
    assert s[i + |r|..] == s[i..][|r|..];
    r
  }

  lemma {:induction false} TrimLeftOf(pre: string, rest: string)
    requires AllSpace(pre)
    requires |rest| == 0 || !IsSpace(rest[0])
    ensures TrimLeft(pre + rest) == rest
  {
    if |pre| > 0 {
      assert (pre + rest)[0] == pre[0];
      assert (pre + rest)[1..] == pre[1..] + rest;
      TrimLeftOf(pre[1..], rest);
    } else {
      assert pre + rest == rest;
    }
  }

  lemma {:induction false} TrimLeftAllSpace(s: string)
    requires AllSpace(s)
    ensures TrimLeft(s) == ""
  {
    if |s| > 0 {
      TrimLeftAllSpace(s[1..]);
    }
  }

  lemma {:induction false} TrimRightOf(rest: string, suf: string)
    requires AllSpace(suf)
    requires |rest| == 0 || !IsSpace(rest[|rest| - 1])
    ensures TrimRight(rest + suf) == rest
  {
    if |suf| > 0 {
      var s := rest + suf;
      assert s[|s| - 1] == suf[|suf| - 1];
      assert s[..|s| - 1] == rest + suf[..|suf| - 1];
      TrimRightOf(rest, suf[..|suf| - 1]);
    } else {
      assert rest + suf == rest;
    }
  }

  /** `strip()` is characterised exactly: whatever trimmed text is surrounded by
      whitespace is what `strip()` returns. */
  lemma StripOf(pre: string, mid: string, suf: string)
    requires AllSpace(pre) && AllSpace(suf) && Trimmed(mid)
    ensures Strip(pre + mid + suf) == mid
  {
    assert pre + mid + suf == pre + (mid + suf);
    if |mid| == 0 {
      assert pre + mid + suf == pre + suf;
      assert AllSpace(pre + suf);
      TrimLeftAllSpace(pre + suf);
    } else {
      assert (mid + suf)[0] == mid[0];
      TrimLeftOf(pre, mid + suf);
      TrimRightOf(mid, suf);
    }
  }

  /** Stripping twice is stripping once. */
  lemma StripIdempotent(s: string)
    ensures Strip(Strip(s)) == Strip(s)
  {
    var r := Strip(s);
    StripOf("", r, "");
    assert "" + r + "" == r;
  }

  predicate IsDigit(c: char) {
    '0' <= c <= '9'
  }

  predicate IsDigits(s: string) {
    forall i :: 0 <= i < |s| ==> IsDigit(s[i])
  }

  function DigitChar(d: nat): (c: char)
    requires d < 10
    ensures IsDigit(c) && c as int - '0' as int == d
  {
    ('0' as int + d) as char
  }

  /** Python's `str(n)` for a non-negative integer: decimal, no leading zero. */
  function NatToString(n: nat): (s: string)
    ensures |s| > 0 && IsDigits(s)
    ensures n >= 10 ==> s[0] != '0'
    ensures n < 10 <==> |s| == 1
  {
    if n < 10 then [DigitChar(n)] else NatToString(n / 10) + [DigitChar(n % 10)]
  }

  /** Python's `int(s)` on a string of decimal digits. */
  function ParseNat(s: string): nat
    requires IsDigits(s)
  {
    if |s| == 0 then 0 else ParseNat(s[..|s| - 1]) * 10 + (s[|s| - 1] as int - '0' as int)
  }

  /** `int(str(n)) == n`. */
  lemma {:induction false} ParseNatToString(n: nat)
    ensures ParseNat(NatToString(n)) == n
  {
    var s := NatToString(n);
    if n >= 10 {
      ParseNatToString(n / 10);
      assert s[..|s| - 1] == NatToString(n / 10);
    }
  }
}
